=== FILE: README.md ===
# gff-utils in Dafny

A model of the record-editing core of `gff-utils`, a command-line tool for
genomic annotation files. It covers these parts:

- **GTF reader.** A GTF (quoted-attribute) text becomes a sequence of
  annotation records: the attribute grammar, the nine-column line parser,
  and the reader that skips `#` comments and stops at the first `>` line.
- **`add`.** Sets attributes on the records selected by a uid filter. There
  is an overwrite policy, and `taxon_id` is dispatched to the typed field.
- **`rm`.** Removes attributes from the selected records. `taxon_id` is
  reset to 0.
- **`view`.** Writes the requested typed fields and attributes of each
  record as a tab-separated row. This includes the header, column-skipping
  versus empty cells, the drop rule and the record counter.
- **`fields`.** Lists the typed field names and the attribute keys of the
  first `num_ann` records.
- **`table`.** The validation pass of `read_table`: skipped lines, comment
  lines, and the column-count check.
- **`key:value` parser.** The parser used for the arguments of `add`.

A record (`Annotations.Annotation`) has typed fields: sequence id, source,
feature type, start, end, score, strand, phase, a 128-bit uid and a
taxon id. It also has a generic `map<string, string>` of attributes.

Every command is a pure function or a short method over a record, or over a
sequence of records or lines. `add` and `rm`, which iterate over a `HashMap` and a
`HashSet`, take the iteration order as a parameter. The model proves that
the result does not depend on that order. `fields` collects keys from
`attributes.keys()` into a set, so it is modelled as a set union and needs
no order.

Modules:

| module | file | models |
|---|---|---|
| `Wrappers` | wrappers.dfy | `Option` and `Result` |
| `Strings` | strings.dfy | `split`, `splitn`, `split_once`, `trim`, `trim_matches`, `trim_end_matches`, `join`, `starts_with` |
| `Numerals` | numerals.dfy | decimal `to_string` of integers; fixed-width lowercase hex |
| `Uids` | uids.dfy | the uuid crate's identifier, its nil value and its hyphenated rendering |
| `Annotations` | annotations.dfy | the record, the uid filter, hashed-collection iteration orders, `HashMap::from_iter` |
| `Gtf` | gtf.dfy | src/gtf.rs |
| `Add` | add.dfy | src/cli/add.rs |
| `Remove` | remove.dfy | src/cli/remove.rs |
| `View` | view.dfy | src/cli/view.rs |
| `Fields` | fields.dfy | src/cli/fields.rs |
| `Table` | table.dfy | `read_table` in src/cli/table.rs |
| `Cli` | cli.dfy | `key_value_parser` in src/cli/mod.rs |

Parameters stand for things the model does not compute. These are the
library parsers (`Gtf.FieldParsers`, the `taxon_id` parser of `add`), the
displays and constants of the record library (`View.Display`), and the
identifiers `Uuid::new_v4` hands out (`Gtf.ReadGtf`'s `generated`, one
per line, never nil).

### Behaviour to note

The model follows the code in each of these cases.

- **Attribute values.** In the GTF dialect, a value is trimmed and then
  loses every leading and trailing `"` (`trim_matches`), so `""ABC""` reads
  as `ABC` (src/gtf.rs:15).
- **`taxon_id` in the GTF reader.** Only `uid` is taken out of the
  attribute map. A `taxon_id` attribute stays in the generic map, and the
  typed taxon of a parsed record is always 0 (src/gtf.rs:18, 46).
  `Gtf.LineOutcome` (taxon 0, generic map equal to the parsed column)
  together with `Gtf.AttributeMap` states this.
- **`uid` in the GTF reader.** A `uid` attribute that parses to the nil
  identifier is treated as absent and replaced by a generated one
  (src/gtf.rs:24-26).
- **Order of checks in `add`.** `add` checks the overwrite policy before the
  `taxon_id` dispatch (src/cli/add.rs:32-38). A record whose generic map
  already has a `taxon_id` key keeps its typed taxon when `overwrite` is
  off, and no parse of the value happens.
- **Records read by `fields`.** `fields` reads the record after the
  `num_ann`-th before it stops. That record is not scanned
  (src/cli/fields.rs:29-32).
- **`keep_empty` in `view`.** The option's help text says it keeps
  annotations where not all attributes were found (src/cli/mod.rs:95).
  Without the option, the code drops only a record for which none of the
  requested names resolves. A record with some of them is written, with the
  missing columns skipped (src/cli/view.rs:58-60, `View.EmitOutcome`).

## Model

| member | source | states |
|---|---|---|
| Gtf.Segments | src/gtf.rs:12 | an attribute column has one segment per `;` plus one, and no segment contains `;` |
| Gtf.Entry | src/gtf.rs:13-15 | a segment yields a key/value pair exactly when it contains a space; the key has no space and no outer whitespace; the value has no leading or trailing `"` |
| Gtf.EntryAt | src/gtf.rs:13-15 | a segment is cut at its first space: the key is the trimmed text before it, and the value is the trimmed text after it without its leading and trailing `"` |
| Gtf.SegmentsOfJoin | src/gtf.rs:12 | a column made of `;`-free pieces joined by `;` has exactly those pieces as segments, each trimmed |
| Gtf.AbsorbAttributes | src/gtf.rs:12-22 | after the segment loop the map holds exactly the earlier keys plus every non-`uid` key some segment defines; each defined key has the value of its last definition; other keys keep their value |
| Gtf.AbsorbOutcome | src/gtf.rs:12-22 | the segment loop fails exactly when some `uid` segment's value does not parse, and reports the first such value |
| Gtf.AbsorbUid | src/gtf.rs:12-22 | after a successful segment loop the identifier is unchanged when no segment names `uid`, and is the last `uid` segment's parsed value otherwise |
| Gtf.Collect | src/gtf.rs:24-27 | a parsed attribute column always has a non-nil identifier, and `uid` is never a key of the generic map |
| Gtf.AttributeMap | src/gtf.rs:8-28 | the generic map of a column holds exactly the non-`uid` keys of its well-formed segments, each with its last value, so a later duplicate wins |
| Gtf.AttributeUid | src/gtf.rs:8-28 | parsing fails exactly when a `uid` value does not parse; otherwise the identifier is the generated one when no `uid` segment exists or the last one is nil, and the last `uid` segment's value otherwise |
| Gtf.EntriesOfText | src/gtf.rs:12-15 | a column written as `key "value";` pairs, separated by spaces, has one entry per pair, in order, and then the empty segment after the final `;` |
| Gtf.AttributeTextMap | src/gtf.rs:8-28 | a column written as `key "value";` pairs reads back as the map of its pairs without `uid`, a later pair overriding an earlier one with the same key; keys are non-empty, without spaces, `;` or outer whitespace, and values have no `;` and no outer `"` |
| Gtf.AttributeTextUid | src/gtf.rs:8-28 | reading such a column fails exactly when a `uid` pair's value does not parse, on the first one; otherwise the identifier is that of the last `uid` pair, or the generated one when there is none or it is nil |
| Gtf.AttributeTextRoundTrip | src/gtf.rs:8-28 | a column written from pairs whose `uid` values all parse, the last one to a non-nil identifier, reads back as exactly that identifier and the map of the pairs without `uid` |
| Gtf.GeneIdAndUid | src/gtf.rs:8-28 | the column `gene_id "ABC"; uid "<u>";` with a non-nil parsable `<u>` gives that identifier and a map holding only `gene_id` = `ABC` |
| Gtf.Columns | src/gtf.rs:31 | a line splits into between one and nine columns |
| Gtf.ColumnCount | src/gtf.rs:31-33 | a line has fewer than nine columns exactly when its trimmed text has fewer than eight tabs |
| Gtf.ColumnsOfJoinedLine | src/gtf.rs:31 | nine trimmed, non-empty columns, the first eight without tabs and the ninth not ending in `;`, joined by tabs split back into themselves; the ninth may contain tabs. A ninth column ending in `;`, as in `gene_id "A";`, loses its trailing `;` characters (`Gtf.ColumnsOfAnyLine` covers that case) |
| Gtf.ColumnsOfAnyLine | src/gtf.rs:31 | the columns of any line are the trimmed pieces of a cut of the trimmed, `;`-stripped line at tabs into at most nine pieces that join back into it; no column but the ninth holds a tab, and the ninth only when there are nine columns |
| Gtf.LineOutcome | src/gtf.rs:30-48 | fewer than nine columns is fatal; then a bad uid, start, end or phase is fatal, in that order, with that field's error; a bad score gives `0.`; a record takes its sequence id, source and feature type from the first three columns and its strand from the seventh; it has taxon 0, a non-nil uid and no `uid` key, and keeps a `taxon_id` attribute in its generic map |
| Gtf.SequenceStartIsFirst | src/gtf.rs:75-76 | the reader's stopping point is the first line that starts with `>`, or the end of the input |
| Gtf.RecordLinesFromExact | src/gtf.rs:71-73 | the lines the reader parses are exactly the lines before the stopping point that do not start with `#`, in increasing order |
| Gtf.ReadFromParsesRecordLines | src/gtf.rs:65-83 | reading from any line before the first `>` parses exactly the non-comment lines from there up to that `>` line, in order |
| Gtf.ParseEachOutcome | src/gtf.rs:100-102 | parsing a list of lines succeeds exactly when each line parses; it yields their records in order, and otherwise the first failing line's error |
| Gtf.ReadGtfRecords | src/gtf.rs:62-84 | the reader yields the parse of every non-comment line before the first `>` line, in input order, and fails with the first such line's error exactly when one does not parse |
| Annotations.LastWinsKeys | src/cli/add.rs:14-15 | the map built from the `key:value` arguments has exactly their keys |
| Annotations.LastWinsValue | src/cli/mod.rs:48-49 | a duplicated key takes the value of its last argument |
| Uids.UidString | src/cli/add.rs:28 | a rendered uid is 36 characters: hyphens at positions 8, 13, 18, 23 and lowercase hex digits elsewhere |
| Uids.UidStringRoundTrip | src/cli/view.rs:31 | the hex digits of a rendered uid, hyphens removed, read back as the identifier's 128 bits |
| Uids.UidStringInjective | src/cli/add.rs:28 | distinct identifiers render differently, so one uid-filter line selects at most one identifier |
| Add.ApplyPairsIsReference | src/cli/add.rs:29-42 | visiting the requested keys in any duplicate-free order gives the closed-form result computed against the record as it was before the loop |
| Add.AddOutcome | src/cli/add.rs:28-43 | outside the filter a record is unchanged; it fails exactly when `taxon_id` is requested, applies, and does not parse; a requested key ends with the requested value unless it was present and `overwrite` is off; `taxon_id` sets only the typed field and never enters the map; unrequested keys and other typed fields are unchanged |
| Add.AddOrderIndependent | src/cli/add.rs:29 | the result does not depend on the map's iteration order |
| Add.AddIdempotent | src/cli/add.rs:28-43 | adding the same pairs to the result again changes nothing |
| Remove.RemoveKeysIsReference | src/cli/remove.rs:24-31 | visiting the requested keys in any order, repeats included, removes every requested key other than `taxon_id` and resets the taxon to 0 when `taxon_id` is requested |
| Remove.RemoveOutcome | src/cli/remove.rs:23-32 | outside the filter a record is unchanged; inside it the map loses exactly the requested keys other than `taxon_id` and keeps the other values; the taxon is 0 exactly when `taxon_id` is requested and otherwise unchanged; other typed fields are unchanged |
| Remove.RemoveOrderIndependent | src/cli/remove.rs:24 | the result does not depend on the set's iteration order |
| Remove.RemoveIdempotent | src/cli/remove.rs:23-32 | removing the same keys from the result again changes nothing |
| View.TypedValue | src/cli/view.rs:30-44 | a requested name is answered from the typed fields exactly when it is one of the eleven typed names; which field each name renders is stated by `View.TaxonCell`, `View.CoordinateCells` and `View.TypedCells` |
| View.Cell | src/cli/view.rs:30-55 | a column is skipped exactly when `keep_empty` is off and the name is neither typed nor a key of the record |
| View.RowKeepingEmpty | src/cli/view.rs:29-57 | with `keep_empty`, the row has one cell per requested name, in order: the typed field, else the attribute, else the empty string |
| View.RowSkippingMissing | src/cli/view.rs:45-54 | without `keep_empty`, the row equals the row of only the names that resolve |
| View.EmitOutcome | src/cli/view.rs:58-61 | a record is dropped exactly when `keep_empty` is off and no requested name resolves; a written line splits back into its cells when no cell holds a tab |
| View.TypedNamesShadowAttributes | src/cli/view.rs:30-45 | a typed name always yields a cell, and that cell does not depend on the attribute map |
| View.TaxonCell | src/cli/view.rs:32-35 | the taxon cell is empty exactly when the taxon is below the root taxon, and otherwise reads back as the taxon |
| View.CoordinateCells | src/cli/view.rs:38-39 | the start and end cells read back as the record's coordinates |
| View.TypedCells | src/cli/view.rs:31-44 | the `uid` cell is the identifier's hyphenated rendering `Uids.UidString`, the same text the uid filters of `add` and `rm` compare against, and it reads back as the identifier; `seq_id`, `source` and `feature_type` are the record's own text; `score`, `strand` and `phase` are their displays; the `length` cell reads back as the record's length; an attribute of the same name never replaces them |
| View.HeaderRoundTrip | src/cli/view.rs:18-21 | the header, after its `#`, splits back into the requested names when none holds a tab |
| View.ViewCommand | src/cli/view.rs:18-64 | the counter equals the number of records read; the output is the optional header followed by the written lines in record order |
| View.KeepEmptyWritesEveryRecord | src/cli/view.rs:58-61 | with `keep_empty` every record is written, one line each |
| Fields.KeysOfMembership | src/cli/fields.rs:33-38 | a key is collected exactly when some scanned record carries it |
| Fields.FieldsCommand | src/cli/fields.rs:12-40 | the number of records scanned is the smaller of `num_ann` and the number of records; the names listed are the ten typed names plus the keys of the scanned records |
| Fields.FieldsListed | src/cli/fields.rs:12-40 | a name is listed exactly when it is a typed name or a key of one of the first `num_ann` records |
| Table.ReadTable | src/cli/table.rs:14-41 | after the skipped lines, the pass accepts exactly when every non-comment line has at least `n_fields` columns; otherwise it reports `n_fields` and the column count of the first short line; an empty comment string accepts everything |
| Table.FieldCountIsTabsPlusOne | src/cli/table.rs:32 | a line's column count is its number of tabs plus one |
| Cli.ParseKeyValue | src/cli/mod.rs:36-41 | an argument fails exactly when it has no `:`; otherwise it is the key, `:`, and the value, and the key has no `:` |
| Cli.KeyValueRoundTrip | src/cli/mod.rs:36-41 | any key without `:` and any value are recovered from `key:value` |

## Left out

- **I/O.** Opening input, output and uid files (src/utils.rs), writing lines
  and logging are left out. Input is a sequence of lines without
  terminators. The uid filter is a given set of strings, as
  `read_uid_file` returns it. A read error, which ends the GTF reader, is
  not modelled.
- **Partial output before an error.** A fatal error stops the program, and
  lines already written stay written. The model returns either the whole
  result or the first error.
- **The file handling and `write!` in `gtf_command`** (src/gtf.rs:86-105)
  are I/O. Record serialisation (`to_string`) belongs to the record
  library. The loop's record order and its stop at the first failing line
  are what `Gtf.ParseEach` models.
- **The record library's reader.** `add`, `rm`, `view` and `fields` get
  their records from the record library's GFF reader, which is not
  modelled. These commands start from an already-parsed sequence of
  `Annotations.Annotation` records.
- **The record library's parsers.** `Uuid::from_str`, integer parsing of
  start, end and `taxon_id`, `f64` parsing of the score,
  `Strand::from_value` and `Phase::from_value` are parameters. The model
  only fixes which of them may fail.
- **The record library's displays and constants.** The `Display` of score,
  strand and phase, `length()` and `ROOT_TAXON` are parameters of `view`.
  The length is taken to depend only on the coordinates.
- **`Uuid::new_v4`.** It is a supplied non-nil identifier for each line.
  Randomness is not modelled.
- **The score.** It is an opaque 64-bit pattern. Floating-point parsing is
  reduced to "parses, or becomes `0.`".
- View.ViewCommand: the program's record counter (src/cli/view.rs:23, 26)
  is an `i32`, because nothing else fixes its type. The model's `count` is
  an unbounded `nat`, so `count == |records|` matches the program only
  below 2^31 records. Past that, the program panics in a debug build and
  wraps to a negative count in a release build. Neither is modelled.
- **The taxon id.** It is unbounded, so the width of the library's integer
  type is not modelled.
- **The `table` join.** `table_command` and the end of `read_table` are
  unfinished (`todo!()`). Only the validation pass is modelled, and its
  success outcome stands for reaching the unfinished code.
- **Command-line handling.** Argument parsing (clap), the comma splitting of
  repeated values, shell completions and `main` are left out, apart from
  `key_value_parser`.
- **Output order of `fields`.** `HashSet` iteration order for the names
  `fields` prints is not modelled. The model states the set.

=== FILE: add.dfy ===
/** `add`: sets attributes on the records a uid filter selects. The
    requested `key:value` pairs are first collected into a map (a later
    duplicate key wins), then applied one key at a time in the map's
    iteration order. `taxon_id` addresses the typed field; every other key
    goes into the generic map. Without `overwrite` a key the generic map
    already holds is left alone. */
module Add {
  import opened Wrappers
  import opened Annotations

  /** The only fatal outcome: a `taxon_id` value that is not an integer. */
  datatype AddError = BadTaxonId(text: string)

  /** The options of `add` once the arguments are parsed; `pairs` is the
      `HashMap` built from the arguments with `LastWins`. */
  datatype AddOptions = AddOptions(
    pairs: map<string, string>,
    overwrite: bool,
    uidFilter: set<string>)

  /** One iteration of the loop over the requested pairs. */
  function Step(
    a: Annotation,
    key: string,
    value: string,
    overwrite: bool,
    parseTaxon: string -> Option<nat>
  ): Result<Annotation, AddError>
  {
    if key in a.attributes && !overwrite then Success(a)
    else if key == TAXON_KEY then
      match parseTaxon(value)
      case None => Failure(BadTaxonId(value))
      case Some(t) => Success(a.(taxonId := t))
    else Success(a.(attributes := a.attributes[key := value]))
  }

  /** The loop over the requested pairs, visiting the keys in `order`;
      the first failure ends it. */
  function ApplyPairs(
    a: Annotation,
    order: seq<string>,
    pairs: map<string, string>,
    overwrite: bool,
    parseTaxon: string -> Option<nat>
  ): Result<Annotation, AddError>
    requires forall i :: 0 <= i < |order| ==> order[i] in pairs
    decreases |order|
  {
    if |order| == 0 then Success(a)
    else
      var b :- Step(a, order[0], pairs[order[0]], overwrite, parseTaxon);
      ApplyPairs(b, order[1..], pairs, overwrite, parseTaxon)
  }

  /** The per-record body of `add_command`: records outside the uid
      filter pass unchanged, the others get the requested pairs in the
      map's iteration order `order`. */
  function AddAttributes(
    a: Annotation,
    options: AddOptions,
    order: seq<string>,
    parseTaxon: string -> Option<nat>
  ): Result<Annotation, AddError>
    requires forall i :: 0 <= i < |order| ==> order[i] in options.pairs
  {
    if Selected(a, options.uidFilter) then
      ApplyPairs(a, order, options.pairs, options.overwrite, parseTaxon)
    else Success(a)
  }

  /** Whether a requested key is applied, judged against the record as it
      was before the loop: it is absent from the generic map, or
      `overwrite` is on. */
  predicate Applies(m: map<string, string>, key: string, overwrite: bool) {
    key !in m || overwrite
  }

  /** The generic map after applying the keys `keys` at once, judged
      against the original map `m`: an applied key other than `taxon_id`
      takes its requested value, everything else keeps its value. */
  function FinalAttributes(
    m: map<string, string>,
    keys: set<string>,
    pairs: map<string, string>,
    overwrite: bool
  ): (r: map<string, string>)
    requires keys <= pairs.Keys
    ensures forall k :: k in r <==> k in m || (k in keys && k != TAXON_KEY)
    ensures forall k :: k in r ==>
      r[k] == if k in keys && k != TAXON_KEY && Applies(m, k, overwrite) then pairs[k] else m[k]
  {
    map k | k in m.Keys + (keys - {TAXON_KEY}) ::
      if k in keys && k != TAXON_KEY && Applies(m, k, overwrite) then pairs[k] else m[k]
  }

  /** The reference outcome of applying the keys `keys` at once, stated
      against the original record and independent of any order. */
  function Reference(
    a: Annotation,
    keys: set<string>,
    pairs: map<string, string>,
    overwrite: bool,
    parseTaxon: string -> Option<nat>
  ): Result<Annotation, AddError>
    requires keys <= pairs.Keys
  {
    var attrs := FinalAttributes(a.attributes, keys, pairs, overwrite);
    if TAXON_KEY in keys && Applies(a.attributes, TAXON_KEY, overwrite) then
      match parseTaxon(pairs[TAXON_KEY])
      case None => Failure(BadTaxonId(pairs[TAXON_KEY]))
      case Some(t) => Success(a.(taxonId := t, attributes := attrs))
    else Success(a.(attributes := attrs))
  }

  lemma ReferenceOfNothing(a: Annotation, pairs: map<string, string>, overwrite: bool, parseTaxon: string -> Option<nat>)
    ensures Reference(a, {}, pairs, overwrite, parseTaxon) == Success(a)
  {
    var r := FinalAttributes(a.attributes, {}, pairs, overwrite);
    assert r.Keys == a.attributes.Keys;
    assert r == a.attributes;
  }

  /** One step on `key`, then the rest at once, leaves the generic map as
      all the keys at once would. */
  lemma FinalAttributesStep(
    m: map<string, string>,
    key: string,
    keys: set<string>,
    pairs: map<string, string>,
    overwrite: bool)
    requires key in pairs && keys <= pairs.Keys && key !in keys
    ensures var mb := if key != TAXON_KEY && Applies(m, key, overwrite) then m[key := pairs[key]] else m;
      FinalAttributes(mb, keys, pairs, overwrite) == FinalAttributes(m, {key} + keys, pairs, overwrite)
  {
    var all := {key} + keys;
    var mb := if key != TAXON_KEY && Applies(m, key, overwrite) then m[key := pairs[key]] else m;
    var left := FinalAttributes(mb, keys, pairs, overwrite);
    var right := FinalAttributes(m, all, pairs, overwrite);
    forall k
      ensures k in left <==> k in right
    {
      if k != key {
        assert (k in mb) == (k in m);
        assert (k in keys) == (k in all);
      }
    }
    forall k | k in left
      ensures left[k] == right[k]
    {
      if k != key {
        assert (k in mb) == (k in m);
        assert k in mb ==> mb[k] == m[k];
        assert (k in keys) == (k in all);
      }
    }
    assert left == right;
  }

  /** Applying the first key and then the rest is the reference outcome of
      all of them: a step on one key does not change whether another key
      applies, because `taxon_id` never enters the generic map and every
      other key is only inserted at its own step. */
  lemma StepThenReference(
    a: Annotation,
    key: string,
    keys: set<string>,
    pairs: map<string, string>,
    overwrite: bool,
    parseTaxon: string -> Option<nat>)
    requires key in pairs && keys <= pairs.Keys && key !in keys
    ensures var s := Step(a, key, pairs[key], overwrite, parseTaxon);
      && (s.Failure? ==> Reference(a, {key} + keys, pairs, overwrite, parseTaxon) == Failure(s.error))
      && (s.Success? ==>
            Reference(s.value, keys, pairs, overwrite, parseTaxon) == Reference(a, {key} + keys, pairs, overwrite, parseTaxon))
  {
    FinalAttributesStep(a.attributes, key, keys, pairs, overwrite);
    var s := Step(a, key, pairs[key], overwrite, parseTaxon);
    if s.Success? {
      assert (TAXON_KEY in s.value.attributes) == (TAXON_KEY in a.attributes);
    }
  }

  /** The loop over distinct keys ends in the reference outcome, whatever
      order it visits them in. */
  lemma {:induction false} ApplyPairsIsReference(
    a: Annotation,
    order: seq<string>,
    pairs: map<string, string>,
    overwrite: bool,
    parseTaxon: string -> Option<nat>)
    requires forall i :: 0 <= i < |order| ==> order[i] in pairs
    requires forall i, j :: 0 <= i < j < |order| ==> order[i] != order[j]
    decreases |order|
    ensures ApplyPairs(a, order, pairs, overwrite, parseTaxon)
         == Reference(a, Elements(order), pairs, overwrite, parseTaxon)
  {
    if |order| == 0 {
      assert Elements(order) == {};
      ReferenceOfNothing(a, pairs, overwrite, parseTaxon);
    } else {
      var key := order[0];
      var rest := order[1..];
      assert Elements(order) == {key} + Elements(rest);
      assert key !in Elements(rest) by {
        forall j | 0 <= j < |rest|
          ensures rest[j] != key
        {
          assert rest[j] == order[j + 1];
        }
      }
      StepThenReference(a, key, Elements(rest), pairs, overwrite, parseTaxon);
      var s := Step(a, key, pairs[key], overwrite, parseTaxon);
      if s.Success? {
        ApplyPairsIsReference(s.value, rest, pairs, overwrite, parseTaxon);
      }
    }
  }

  /** What `add` does to one record, for any iteration order of the
      requested map:
      - outside the uid filter the record is returned unchanged;
      - it fails exactly when `taxon_id` is requested and applies but its
        value does not parse;
      - a requested key other than `taxon_id` ends with its requested
        value, unless it was already present and `overwrite` is off, in
        which case it keeps its value;
      - an applied `taxon_id` sets the typed field, and `taxon_id` is never
        inserted into the generic map;
      - unrequested keys and every other typed field are unchanged. */
  lemma AddOutcome(a: Annotation, options: AddOptions, order: seq<string>, parseTaxon: string -> Option<nat>)
    requires Enumerates(order, options.pairs.Keys)
    ensures var r := AddAttributes(a, options, order, parseTaxon);
      var pairs := options.pairs;
      var m := a.attributes;
      var taxonApplies := Selected(a, options.uidFilter) && TAXON_KEY in pairs && Applies(m, TAXON_KEY, options.overwrite);
      && (!Selected(a, options.uidFilter) ==> r == Success(a))
      && (r.Failure? <==> taxonApplies && parseTaxon(pairs[TAXON_KEY]).None?)
      && (r.Failure? ==> r.error == BadTaxonId(pairs[TAXON_KEY]))
      && (r.Success? && Selected(a, options.uidFilter) ==>
            var b := r.value;
            && (forall k :: k in pairs && k != TAXON_KEY ==>
                  k in b.attributes && b.attributes[k] == if Applies(m, k, options.overwrite) then pairs[k] else m[k])
            && (forall k :: k !in pairs || k == TAXON_KEY ==>
                  (k in b.attributes <==> k in m) && (k in m ==> b.attributes[k] == m[k]))
            && b.taxonId == (if taxonApplies then parseTaxon(pairs[TAXON_KEY]).value else a.taxonId)
            && b.(attributes := m, taxonId := a.taxonId) == a)
  {
    assert forall i :: 0 <= i < |order| ==> order[i] in options.pairs;
    ApplyPairsIsReference(a, order, options.pairs, options.overwrite, parseTaxon);
  }

  /** The iteration order of the requested map does not matter. */
  lemma AddOrderIndependent(
    a: Annotation,
    options: AddOptions,
    order1: seq<string>,
    order2: seq<string>,
    parseTaxon: string -> Option<nat>)
    requires Enumerates(order1, options.pairs.Keys) && Enumerates(order2, options.pairs.Keys)
    ensures AddAttributes(a, options, order1, parseTaxon) == AddAttributes(a, options, order2, parseTaxon)
  {
    assert forall i :: 0 <= i < |order1| ==> order1[i] in options.pairs;
    assert forall i :: 0 <= i < |order2| ==> order2[i] in options.pairs;
    ApplyPairsIsReference(a, order1, options.pairs, options.overwrite, parseTaxon);
    ApplyPairsIsReference(a, order2, options.pairs, options.overwrite, parseTaxon);
  }

  /** The reference map is a fixed point of itself. */
  lemma FinalAttributesIdempotent(
    m: map<string, string>,
    keys: set<string>,
    pairs: map<string, string>,
    overwrite: bool)
    requires keys <= pairs.Keys
    ensures var r := FinalAttributes(m, keys, pairs, overwrite);
      FinalAttributes(r, keys, pairs, overwrite) == r
  {
    var r := FinalAttributes(m, keys, pairs, overwrite);
    var again := FinalAttributes(r, keys, pairs, overwrite);
    assert again.Keys == r.Keys;
    forall k | k in again
      ensures again[k] == r[k]
    {
    }
    assert again == r;
  }

  /** Adding the same pairs a second time changes nothing. */
  lemma AddIdempotent(a: Annotation, options: AddOptions, order: seq<string>, parseTaxon: string -> Option<nat>)
    requires Enumerates(order, options.pairs.Keys)
    requires AddAttributes(a, options, order, parseTaxon).Success?
    ensures var b := AddAttributes(a, options, order, parseTaxon).value;
      AddAttributes(b, options, order, parseTaxon) == Success(b)
  {
    assert forall i :: 0 <= i < |order| ==> order[i] in options.pairs;
    var b := AddAttributes(a, options, order, parseTaxon).value;
    if Selected(a, options.uidFilter) {
      var keys := options.pairs.Keys;
      ApplyPairsIsReference(a, order, options.pairs, options.overwrite, parseTaxon);
      ApplyPairsIsReference(b, order, options.pairs, options.overwrite, parseTaxon);
      FinalAttributesIdempotent(a.attributes, keys, options.pairs, options.overwrite);
      assert b.attributes == FinalAttributes(a.attributes, keys, options.pairs, options.overwrite);
      assert (TAXON_KEY in b.attributes) == (TAXON_KEY in a.attributes);
    }
  }
}

=== FILE: annotations.dfy ===
/** The annotation record shared by every command: typed core fields plus
    a generic attribute map, and the pieces of per-record configuration
    the commands have in common (the uid filter, the attribute keys that
    are really typed fields, the iteration order of hashed collections). */
module Annotations {
  import opened Uids

  datatype Strand = Forward | Reverse | UnknownStrand

  datatype Phase = Phase0 | Phase1 | Phase2 | UnknownPhase

  /** An `f64` score, kept opaque as its IEEE 754 bit pattern. */
  datatype Score = Score(bits: bv64)

  /** `0.`, the score used when the score column does not parse. */
  const ZERO_SCORE: Score := Score(0)

  datatype Annotation = Annotation(
    seqId: string,
    source: string,
    featureType: string,
    start: int,
    end: int,
    score: Score,
    strand: Strand,
    phase: Phase,
    uid: Uid,
    taxonId: nat,
    attributes: map<string, string>)

  /** The attribute key diverted into the typed `uid` field. */
  const UID_KEY: string := "uid"

  /** The attribute key that addresses the typed `taxon_id` field. */
  const TAXON_KEY: string := "taxon_id"

  /** The uid filter of `add` and `rm`: an empty set selects every record,
      otherwise the record's rendered uid must be listed. */
  predicate Selected(a: Annotation, uidFilter: set<string>) {
    |uidFilter| == 0 || UidString(a.uid) in uidFilter
  }

  /** The elements of a sequence, as a set. */
  function Elements<T>(xs: seq<T>): set<T> {
    set x | x in xs
  }

  /** `order` visits every element of `keys` exactly once: the iteration
      order of a `HashMap` or `HashSet`, which the program leaves
      unspecified. */
  predicate Enumerates<T>(order: seq<T>, keys: set<T>) {
    && (forall i, j :: 0 <= i < j < |order| ==> order[i] != order[j])
    && Elements(order) == keys
  }

  /** `HashMap::from_iter`: pairs inserted in order, so a later pair
      replaces an earlier one with the same key. */
  function LastWins<K, V>(pairs: seq<(K, V)>): map<K, V> {
    if |pairs| == 0 then map[]
    else
      var last := pairs[|pairs| - 1];
      LastWins(pairs[..|pairs| - 1])[last.0 := last.1]
  }

  /** The keys of the map are exactly the keys of the pairs. */
  lemma {:induction false} LastWinsKeys<K, V>(pairs: seq<(K, V)>, k: K)
    ensures k in LastWins(pairs) <==> exists i :: 0 <= i < |pairs| && pairs[i].0 == k
  {
    if |pairs| > 0 {
      var init := pairs[..|pairs| - 1];
      LastWinsKeys(init, k);
      if k in LastWins(init) {
        var i :| 0 <= i < |init| && init[i].0 == k;
        assert pairs[i].0 == k;
      }
      if exists i :: 0 <= i < |pairs| && pairs[i].0 == k {
        var i :| 0 <= i < |pairs| && pairs[i].0 == k;
        if i < |init| {
          assert init[i].0 == k;
        }
      }
    }
  }

  /** A key is mapped to the value of the last pair that carries it. */
  lemma {:induction false} LastWinsValue<K, V>(pairs: seq<(K, V)>, i: nat)
    requires i < |pairs|
    requires forall j :: i < j < |pairs| ==> pairs[j].0 != pairs[i].0
    ensures pairs[i].0 in LastWins(pairs)
    ensures LastWins(pairs)[pairs[i].0] == pairs[i].1
  {
    var init := pairs[..|pairs| - 1];
    if i < |pairs| - 1 {
      assert init[i] == pairs[i];
      LastWinsValue(init, i);
    }
  }
}

=== FILE: cli.dfy ===
/** The `key:value` argument parser of `add`. */
module Cli {
  import opened Wrappers
  import opened Strings

  datatype KeyValueError = NotKeyValue(arg: string)

  /** `key_value_parser`: splits at the first ':'; the value may hold
      further colons, the key holds none. */
  function ParseKeyValue(arg: string): (r: Result<(string, string), KeyValueError>)
    ensures r.Failure? <==> ':' !in arg
    ensures r.Failure? ==> r.error == NotKeyValue(arg)
    ensures r.Success? ==> arg == r.value.0 + ":" + r.value.1 && ':' !in r.value.0
  {
    match SplitOnce(arg, ':')
    case None => Failure(NotKeyValue(arg))
    case Some((key, value)) => Success((key, value))
  }

  /** Any key without a colon and any value are recovered from their
      `key:value` rendering. */
  lemma KeyValueRoundTrip(key: string, value: string)
    requires ':' !in key
    ensures ParseKeyValue(key + ":" + value) == Success((key, value))
  {
    SplitOnceAt(key, value, ':');
  }
}

=== FILE: fields.dfy ===
/** `fields`: lists the names `view` can ask for: the typed fields, plus
    every attribute key found in the first `num_ann` records. */
module Fields {
  import opened Annotations

  /** The names listed before any record is read. `taxon_id` is not among
      them: it is listed only when a record carries it as a generic
      attribute. */
  const SEED_FIELDS: set<string> :=
    {"uid", "seq_id", "source", "feature_type", "start", "end", "score", "strand", "phase", "length"}

  /** The largest `num_ann` accepted: the option is a `u16`. */
  const MAX_NUM_ANN: nat := 0xFFFF

  /** The attribute keys found in the records. */
  function KeysOf(records: seq<Annotation>): (keys: set<string>)
    ensures forall r :: r in records ==> r.attributes.Keys <= keys
  {
    if |records| == 0 then {}
    else KeysOf(records[..|records| - 1]) + records[|records| - 1].attributes.Keys
  }

  /** A key is found exactly when one of the records carries it. */
  lemma {:induction false} KeysOfMembership(records: seq<Annotation>, k: string)
    ensures k in KeysOf(records) <==> exists i :: 0 <= i < |records| && k in records[i].attributes
  {
    if |records| > 0 {
      var init := records[..|records| - 1];
      KeysOfMembership(init, k);
      if k in KeysOf(init) {
        var i :| 0 <= i < |init| && k in init[i].attributes;
        assert records[i] == init[i];
      }
    }
  }

  /** The loop of `fields_command`: reads records until `num_ann` have been
      scanned, collecting their attribute keys; the record that finds the
      count reached is read but not scanned. */
  method FieldsCommand(records: seq<Annotation>, numAnn: nat) returns (fields: set<string>, count: nat)
    requires 1 <= numAnn <= MAX_NUM_ANN
    ensures count == if numAnn < |records| then numAnn else |records|
    ensures fields == SEED_FIELDS + KeysOf(records[..count])
    ensures count <= MAX_NUM_ANN
  {
    fields := SEED_FIELDS;
    count := 0;
    for i := 0 to |records|
      invariant count == i <= numAnn
      invariant fields == SEED_FIELDS + KeysOf(records[..count])
    {
      if count >= numAnn {
        break;
      }
      fields := fields + records[i].attributes.Keys;
      count := count + 1;
      assert records[..count][..count - 1] == records[..count - 1];
    }
  }

  /** What `fields` lists, name by name: the seed names, and any key that
      one of the first `num_ann` records carries. */
  lemma FieldsListed(records: seq<Annotation>, numAnn: nat, k: string)
    requires 1 <= numAnn
    ensures var count := if numAnn < |records| then numAnn else |records|;
      k in SEED_FIELDS + KeysOf(records[..count]) <==>
        k in SEED_FIELDS || exists i :: 0 <= i < count && k in records[i].attributes
  {
    var count := if numAnn < |records| then numAnn else |records|;
    KeysOfMembership(records[..count], k);
    if exists i :: 0 <= i < count && k in records[i].attributes {
      var i :| 0 <= i < count && k in records[i].attributes;
      assert records[..count][i] == records[i];
    }
  }
}

=== FILE: gtf.dfy ===
/** The quoted-attribute (GTF) dialect: the attribute-column grammar, the
    nine-column line parser and the reader that turns lines into records.

    The library parsers the code calls (`Uuid::from_str`, `str::parse` for
    the coordinates and the score, `Strand::from_value`,
    `Phase::from_value`) are not visible and are parameters here. */
module Gtf {
  import opened Wrappers
  import opened Strings
  import opened Uids
  import opened Annotations

  /** The fatal outcomes of parsing a line (each an `unwrap` or an
      out-of-bounds index in the program). */
  datatype GtfError =
    | TooFewFields(found: nat)
    | BadUid(text: string)
    | BadStart(text: string)
    | BadEnd(text: string)
    | BadPhase(text: string)

  /** The partial parsers of the annotation library, as parameters. */
  datatype FieldParsers = FieldParsers(
    uid: string -> Option<Uid>,
    position: string -> Option<int>,
    score: string -> Option<Score>,
    strand: string -> Strand,
    phase: string -> Option<Phase>)

  // ---------------------------------------------------------------------
  // The attribute column
  // ---------------------------------------------------------------------

  /** The `;`-separated segments of an attribute column, each trimmed. */
  function Segments(column: string): (segs: seq<string>)
    ensures |segs| == Occurrences(column, ';') + 1
    ensures forall i :: 0 <= i < |segs| ==> ';' !in segs[i]
  {
    var parts := Split(column, ';');
    SplitCount(column, ';');
    TrimAllFree(parts, ';');
    TrimAll(parts)
  }

  /** The key and value of a segment, cut at its first space: the key is
      trimmed, the value is trimmed and then loses every leading and
      trailing double quote. A segment without a space has no entry. */
  function Entry(segment: string): (e: Option<(string, string)>)
    ensures e.Some? <==> ' ' in segment
    ensures e.Some? ==> ' ' !in e.value.0
    ensures e.Some? ==> e.value.0 == [] || (!IsWhitespace(e.value.0[0]) && !IsWhitespace(e.value.0[|e.value.0| - 1]))
    ensures e.Some? ==> e.value.1 == [] || (e.value.1[0] != '"' && e.value.1[|e.value.1| - 1] != '"')
  {
    var cut := SplitOnce(segment, ' ');
    if cut.None? then None
    else Some((Trim(cut.value.0), TrimMatches(Trim(cut.value.1), '"')))
  }

  /** The entries of the segments of an attribute column, in order. */
  function Entries(column: string): (es: seq<Option<(string, string)>>)
    ensures |es| == Occurrences(column, ';') + 1
  {
    EntryAll(Segments(column))
  }

  /** The entry of every segment, in order. */
  function EntryAll(segs: seq<string>): (es: seq<Option<(string, string)>>)
    ensures |es| == |segs|
  {
    if |segs| == 0 then [] else [Entry(segs[0])] + EntryAll(segs[1..])
  }

  /** The entry has key `key`. */
  predicate Defines(e: Option<(string, string)>, key: string) {
    e.Some? && e.value.0 == key
  }

  function Value(e: Option<(string, string)>): string
    requires e.Some?
  {
    e.value.1
  }

  /** Some entry has key `key`. */
  predicate Mentions(es: seq<Option<(string, string)>>, key: string) {
    exists i :: 0 <= i < |es| && Defines(es[i], key)
  }

  /** Entry `i` is the last entry with key `key`. */
  predicate LastDefinition(es: seq<Option<(string, string)>>, i: int, key: string) {
    && 0 <= i < |es|
    && Defines(es[i], key)
    && forall j :: i < j < |es| ==> !Defines(es[j], key)
  }

  /** A `uid` entry carries a value the identifier parser accepts. */
  predicate UidParses(e: Option<(string, string)>, parseUid: string -> Option<Uid>) {
    Defines(e, UID_KEY) ==> parseUid(Value(e)).Some?
  }

  /** The loop over the segments: entries with key `uid` replace the
      identifier (an unparsable one is fatal), every other entry is
      inserted into the map, segments without an entry are skipped. */
  function Absorb(
    segs: seq<Option<(string, string)>>,
    parseUid: string -> Option<Uid>,
    uid: Uid,
    attributes: map<string, string>
  ): Result<(Uid, map<string, string>), GtfError>
  {
    if |segs| == 0 then Success((uid, attributes))
    else
      match segs[0]
      case None => Absorb(segs[1..], parseUid, uid, attributes)
      case Some((key, value)) =>
        if key == UID_KEY then
          match parseUid(value)
          case None => Failure(BadUid(value))
          case Some(u) => Absorb(segs[1..], parseUid, u, attributes)
        else
          Absorb(segs[1..], parseUid, uid, attributes[key := value])
  }

  lemma ShiftMentions(segs: seq<Option<(string, string)>>, key: string)
    requires |segs| > 0
    ensures Mentions(segs, key) <==> Defines(segs[0], key) || Mentions(segs[1..], key)
  {
    if Mentions(segs[1..], key) {
      var i :| 0 <= i < |segs[1..]| && Defines(segs[1..][i], key);
      assert Defines(segs[i + 1], key);
    }
    if Mentions(segs, key) && !Defines(segs[0], key) {
      var i :| 0 <= i < |segs| && Defines(segs[i], key);
      assert Defines(segs[1..][i - 1], key);
    }
  }

  /** What the loop does to the map: exactly the non-`uid` keys of the
      segments are added, each with the value of its last segment, and
      keys no segment defines keep their value. */
  lemma {:induction false} AbsorbAttributes(
    segs: seq<Option<(string, string)>>,
    parseUid: string -> Option<Uid>,
    uid: Uid,
    m0: map<string, string>)
    requires Absorb(segs, parseUid, uid, m0).Success?
    ensures var m := Absorb(segs, parseUid, uid, m0).value.1;
      && (forall k :: k in m <==> k in m0 || (k != UID_KEY && Mentions(segs, k)))
      && (forall i, k :: k != UID_KEY && LastDefinition(segs, i, k) ==> k in m && m[k] == Value(segs[i]))
      && (forall k :: k in m0 && !(k != UID_KEY && Mentions(segs, k)) ==> m[k] == m0[k])
  {
    if |segs| > 0 {
      var rest := segs[1..];
      forall k {
        ShiftMentions(segs, k);
      }
      var m := Absorb(segs, parseUid, uid, m0).value.1;
      match segs[0]
      case None =>
        AbsorbAttributes(rest, parseUid, uid, m0);
        forall i, k | k != UID_KEY && LastDefinition(segs, i, k)
          ensures k in m && m[k] == Value(segs[i])
        {
          assert LastDefinition(rest, i - 1, k);
        }
      case Some((key, value)) =>
        if key == UID_KEY {
          AbsorbAttributes(rest, parseUid, parseUid(value).value, m0);
          forall i, k | k != UID_KEY && LastDefinition(segs, i, k)
            ensures k in m && m[k] == Value(segs[i])
          {
            assert LastDefinition(rest, i - 1, k);
          }
        } else {
          var m1 := m0[key := value];
          AbsorbAttributes(rest, parseUid, uid, m1);
          forall i, k | k != UID_KEY && LastDefinition(segs, i, k)
            ensures k in m && m[k] == Value(segs[i])
          {
            if i == 0 {
              forall j | 0 <= j < |rest|
                ensures !Defines(rest[j], k)
              {
                assert rest[j] == segs[j + 1];
              }
            } else {
              assert LastDefinition(rest, i - 1, k);
            }
          }
        }
    }
  }

  /** When the loop fails: exactly when a `uid` segment does not parse,
      reporting the value of the first such segment. */
  lemma {:induction false} AbsorbOutcome(
    segs: seq<Option<(string, string)>>,
    parseUid: string -> Option<Uid>,
    uid: Uid,
    m0: map<string, string>)
    ensures var r := Absorb(segs, parseUid, uid, m0);
      && (r.Success? <==> forall i :: 0 <= i < |segs| ==> UidParses(segs[i], parseUid))
      && (r.Failure? ==> exists i :: 0 <= i < |segs| && !UidParses(segs[i], parseUid)
                                   && r.error == BadUid(Value(segs[i]))
                                   && forall j :: 0 <= j < i ==> UidParses(segs[j], parseUid))
  {
    if |segs| > 0 {
      var rest := segs[1..];
      var r := Absorb(segs, parseUid, uid, m0);
      assert forall i :: 0 < i < |segs| ==> segs[i] == rest[i - 1];
      if segs[0].Some? && segs[0].value.0 == UID_KEY && parseUid(segs[0].value.1).None? {
        assert !UidParses(segs[0], parseUid);
      } else {
        var key := if segs[0].Some? then segs[0].value.0 else "";
        var u := if segs[0].Some? && key == UID_KEY then parseUid(segs[0].value.1).value else uid;
        var m1 := if segs[0].Some? && key != UID_KEY then m0[key := segs[0].value.1] else m0;
        assert r == Absorb(rest, parseUid, u, m1);
        AbsorbOutcome(rest, parseUid, u, m1);
        if r.Failure? {
          var i :| 0 <= i < |rest| && !UidParses(rest[i], parseUid)
                   && r.error == BadUid(Value(rest[i]))
                   && forall j :: 0 <= j < i ==> UidParses(rest[j], parseUid);
          assert !UidParses(segs[i + 1], parseUid);
          assert UidParses(segs[0], parseUid);
        }
      }
    }
  }

  /** The identifier after a successful loop: the last `uid` segment's,
      and the start value when no segment names `uid`. */
  lemma {:induction false} AbsorbUid(
    segs: seq<Option<(string, string)>>,
    parseUid: string -> Option<Uid>,
    uid: Uid,
    m0: map<string, string>)
    requires Absorb(segs, parseUid, uid, m0).Success?
    ensures var u := Absorb(segs, parseUid, uid, m0).value.0;
      && (!Mentions(segs, UID_KEY) ==> u == uid)
      && (forall i :: LastDefinition(segs, i, UID_KEY) ==> parseUid(Value(segs[i])) == Some(u))
  {
    if |segs| > 0 {
      var rest := segs[1..];
      var r := Absorb(segs, parseUid, uid, m0);
      ShiftMentions(segs, UID_KEY);
      var key := if segs[0].Some? then segs[0].value.0 else "";
      var u := if segs[0].Some? && key == UID_KEY then parseUid(segs[0].value.1).value else uid;
      var m1 := if segs[0].Some? && key != UID_KEY then m0[key := segs[0].value.1] else m0;
      assert r == Absorb(rest, parseUid, u, m1);
      AbsorbUid(rest, parseUid, u, m1);
      forall i | LastDefinition(segs, i, UID_KEY)
        ensures parseUid(Value(segs[i])) == Some(r.value.0)
      {
        if i == 0 {
          forall j | 0 <= j < |rest|
            ensures !Defines(rest[j], UID_KEY)
          {
            assert rest[j] == segs[j + 1];
          }
        } else {
          assert LastDefinition(rest, i - 1, UID_KEY);
        }
      }
    }
  }

  /** The identifier and generic map built from the entries of an
      attribute column. A nil or missing identifier is replaced by the
      generated one, so the identifier returned is never nil, and the key
      `uid` never reaches the map. */
  function Collect(
    es: seq<Option<(string, string)>>,
    parseUid: string -> Option<Uid>,
    generated: FreshUid
  ): (r: Result<(Uid, map<string, string>), GtfError>)
    ensures r.Success? ==> !r.value.0.IsNil()
    ensures r.Success? ==> UID_KEY !in r.value.1
  {
    var found :- Absorb(es, parseUid, NIL, map[]);
    AbsorbAttributes(es, parseUid, NIL, map[]);
    Success((if found.0.IsNil() then generated else found.0, found.1))
  }

  /** `parse_gtf_attributes`: the identifier and the generic map of an
      attribute column. */
  function ParseGtfAttributes(
    column: string,
    parseUid: string -> Option<Uid>,
    generated: FreshUid
  ): Result<(Uid, map<string, string>), GtfError>
  {
    Collect(Entries(column), parseUid, generated)
  }

  /** The generic map holds exactly the keys of the well-formed segments
      other than `uid`, each with the value of the last segment naming it
      (a later duplicate overwrites an earlier one). */
  lemma AttributeMap(column: string, parseUid: string -> Option<Uid>, generated: FreshUid)
    requires ParseGtfAttributes(column, parseUid, generated).Success?
    ensures var segs := Entries(column);
      var m := ParseGtfAttributes(column, parseUid, generated).value.1;
      && (forall k :: k in m <==> k != UID_KEY && Mentions(segs, k))
      && (forall i, k :: k != UID_KEY && LastDefinition(segs, i, k) ==> k in m && m[k] == Value(segs[i]))
  {
    AbsorbAttributes(Entries(column), parseUid, NIL, map[]);
  }

  /** The identifier: parsing fails exactly when some `uid` segment does
      not parse; otherwise the last `uid` segment's identifier is kept
      unless it is nil, and the generated identifier is used when it is nil
      or when no segment names `uid`. */
  lemma AttributeUid(column: string, parseUid: string -> Option<Uid>, generated: FreshUid)
    ensures var segs := Entries(column);
      var r := ParseGtfAttributes(column, parseUid, generated);
      && (r.Success? <==> forall i :: 0 <= i < |segs| ==> UidParses(segs[i], parseUid))
      && (r.Success? && !Mentions(segs, UID_KEY) ==> r.value.0 == generated)
      && (r.Success? ==> forall i :: LastDefinition(segs, i, UID_KEY) ==>
            var u := parseUid(Value(segs[i])).value;
            r.value.0 == if u.IsNil() then generated else u)
      && (r.Failure? ==> exists i :: 0 <= i < |segs| && !UidParses(segs[i], parseUid)
                                   && r.error == BadUid(Value(segs[i]))
                                   && forall j :: 0 <= j < i ==> UidParses(segs[j], parseUid))
  {
    var segs := Entries(column);
    AbsorbOutcome(segs, parseUid, NIL, map[]);
    if Absorb(segs, parseUid, NIL, map[]).Success? {
      AbsorbUid(segs, parseUid, NIL, map[]);
    }
  }

  /** Segments are the trimmed `;`-pieces of the column: joining pieces
      free of `;` gives a column whose segments are those pieces, each
      trimmed. */
  lemma SegmentsOfJoin(parts: seq<string>)
    requires |parts| >= 1
    requires forall i :: 0 <= i < |parts| ==> ';' !in parts[i]
    ensures var segs := Segments(Join(parts, ";"));
      && |segs| == |parts|
      && forall i :: 0 <= i < |parts| ==> segs[i] == Trim(parts[i])
  {
    SplitJoin(parts, ';');
    TrimAllAt(parts);
  }

  /** An entry is cut at the first space: the key is the trimmed text
      before it, the value the trimmed text after it without its outer
      double quotes. */
  lemma EntryAt(key: string, rest: string)
    requires ' ' !in key
    ensures Entry(key + " " + rest) == Some((Trim(key), TrimMatches(Trim(rest), '"')))
  {
    SplitOnceAt(key, rest, ' ');
  }

  /** A pair that survives being written as `key "value"`: the key is
      non-empty, has no space, `;` or outer whitespace, and the value has
      no `;` and no outer double quote. */
  predicate WritablePair(p: (string, string)) {
    && |p.0| > 0
    && ' ' !in p.0
    && ';' !in p.0
    && !IsWhitespace(p.0[0])
    && !IsWhitespace(p.0[|p.0| - 1])
    && ';' !in p.1
    && (p.1 == [] || (p.1[0] != '"' && p.1[|p.1| - 1] != '"'))
  }

  /** One attribute written in the quoted dialect: `key "value"`. */
  function Quoted(p: (string, string)): string {
    p.0 + " " + InQuotes(p.1)
  }

  /** A value between double quotes. */
  function InQuotes(v: string): string {
    "\"" + v + "\""
  }

  /** An attribute column in the quoted dialect: every pair written as
      `key "value";`, neighbours separated by a space. */
  function AttributeText(pairs: seq<(string, string)>): string {
    if |pairs| == 0 then ""
    else Quoted(pairs[0]) + ";" + (if |pairs| == 1 then "" else " " + AttributeText(pairs[1..]))
  }

  /** The first segment of a column is cut at the first `;`. */
  lemma EntriesCons(a: string, b: string)
    requires ';' !in a
    ensures Entries(a + ";" + b) == [Entry(Trim(a))] + Entries(b)
  {
    SplitAt(a, b, ';');
    TrimAllCons(a, Split(b, ';'));
    var segs := Segments(b);
    assert ([Trim(a)] + segs)[1..] == segs;
  }

  /** The same, after a padding the first segment's trim removes. */
  lemma EntriesConsPadded(pad: string, a: string, b: string)
    requires ';' !in pad + a
    ensures Entries(pad + (a + ";" + b)) == [Entry(Trim(pad + a))] + Entries(b)
  {
    assert pad + (a + ";" + b) == (pad + a) + ";" + b;
    EntriesCons(pad + a, b);
  }

  /** A written pair is its own trimmed segment and reads back as itself. */
  lemma QuotedReadsBack(p: (string, string), pad: string)
    requires WritablePair(p)
    requires pad == "" || pad == " "
    ensures ';' !in pad + Quoted(p)
    ensures Trim(pad + Quoted(p)) == Quoted(p)
    ensures Entry(Quoted(p)) == Some(p)
  {
    QuotedSegment(p, pad);
    QuotedEntry(p);
  }

  /** After at most one space, a written pair is a `;`-free segment that
      trims to itself. */
  lemma QuotedSegment(p: (string, string), pad: string)
    requires WritablePair(p)
    requires pad == "" || pad == " "
    ensures ';' !in pad + Quoted(p)
    ensures Trim(pad + Quoted(p)) == Quoted(p)
  {
    var q := Quoted(p);
    var rest := InQuotes(p.1);
    InQuotesEnds(p.1);
    assert q[0] == p.0[0] && q[|q| - 1] == rest[|rest| - 1];
    TrimPadded(pad, q);
  }

  /** A written pair is cut back into its key and value. */
  lemma QuotedEntry(p: (string, string))
    requires WritablePair(p)
    ensures Entry(Quoted(p)) == Some(p)
  {
    var rest := InQuotes(p.1);
    InQuotesEnds(p.1);
    TrimPadded("", rest);
    TrimPadded("", p.0);
    EntryAt(p.0, rest);
  }

  /** A quoted value starts and ends with a double quote, holds no `;` if
      the value holds none, and unquotes to the value. */
  lemma InQuotesEnds(v: string)
    requires ';' !in v
    requires v == [] || (v[0] != '"' && v[|v| - 1] != '"')
    ensures var q := InQuotes(v); |q| >= 2 && q[0] == '"' && q[|q| - 1] == '"' && ';' !in q
    ensures TrimMatches(InQuotes(v), '"') == v
  {
    UnquoteQuoted(v);
  }

  /** A text without outer whitespace, after at most one space, trims to
      itself. */
  lemma TrimPadded(pad: string, q: string)
    requires pad == "" || pad == " "
    requires |q| > 0 && !IsWhitespace(q[0]) && !IsWhitespace(q[|q| - 1])
    ensures Trim(pad + q) == q
  {
    if pad == " " {
      assert (pad + q)[1..] == q;
      assert TrimStart(pad + q, IsWhitespace) == TrimStart(q, IsWhitespace);
      assert Trim(q) == q;
    } else {
      assert pad + q == q;
    }
  }

  /** Stripping the outer double quotes of `"value"` gives back a value
      without outer double quotes. */
  lemma UnquoteQuoted(v: string)
    requires v == [] || (v[0] != '"' && v[|v| - 1] != '"')
    ensures TrimMatches(InQuotes(v), '"') == v
  {
    var s := InQuotes(v);
    var p := (x: char) => x == '"';
    assert s[1..] == v + "\"";
    if v == [] {
      assert TrimStart(s, p) == [];
    } else {
      assert TrimStart(v + "\"", p) == v + "\"";
      assert TrimStart(s, p) == v + "\"";
      assert (v + "\"")[..|v|] == v;
      assert TrimEnd(v + "\"", p) == v;
    }
  }

  /** `es` holds one entry per pair, in order, and then no entry. */
  predicate EntriesOfPairs(es: seq<Option<(string, string)>>, pairs: seq<(string, string)>) {
    && |es| == |pairs| + 1
    && (forall i :: 0 <= i < |pairs| ==> es[i] == Some(pairs[i]))
    && es[|pairs|] == None
  }

  /** The entries of a written column: one per pair, in order, and the
      empty segment after the final `;`. */
  lemma {:induction false} EntriesOfText(pairs: seq<(string, string)>, pad: string)
    requires forall i :: 0 <= i < |pairs| ==> WritablePair(pairs[i])
    requires pad == "" || pad == " "
    ensures EntriesOfPairs(Entries(pad + AttributeText(pairs)), pairs)
  {
    if |pairs| == 0 {
      assert pad + AttributeText(pairs) == pad;
      EntriesOfBlank(pad);
    } else {
      if |pairs| == 1 {
        EntriesOfBlank("");
      } else {
        EntriesOfText(pairs[1..], " ");
      }
      EntriesOfTextStep(pairs, pad);
    }
  }

  /** A blank column has one segment and no entry. */
  lemma EntriesOfBlank(pad: string)
    requires pad == "" || pad == " "
    ensures Entries(pad) == [None]
  {
    assert Split(pad, ';') == [pad];
    assert TrimAll([pad]) == [Trim(pad)];
    assert Trim(pad) == [];
    assert EntryAll([[]]) == [Entry([])];
  }

  /** One more pair in front: its entry, then the entries of the rest. */
  lemma EntriesOfTextStep(pairs: seq<(string, string)>, pad: string)
    requires |pairs| >= 1
    requires forall i :: 0 <= i < |pairs| ==> WritablePair(pairs[i])
    requires pad == "" || pad == " "
    requires EntriesOfPairs(Entries(if |pairs| == 1 then "" else " " + AttributeText(pairs[1..])), pairs[1..])
    ensures EntriesOfPairs(Entries(pad + AttributeText(pairs)), pairs)
  {
    var tail := if |pairs| == 1 then "" else " " + AttributeText(pairs[1..]);
    var q := Quoted(pairs[0]);
    assert AttributeText(pairs) == q + ";" + tail;
    QuotedReadsBack(pairs[0], pad);
    EntriesConsPadded(pad, q, tail);
    EntriesOfPairsCons(pairs, Entries(pad + AttributeText(pairs)), Entries(tail));
  }

  /** The entries of the first pair and of the rest make the entries of
      all pairs. */
  lemma EntriesOfPairsCons(
    pairs: seq<(string, string)>,
    es: seq<Option<(string, string)>>,
    rest: seq<Option<(string, string)>>)
    requires |pairs| >= 1
    requires EntriesOfPairs(rest, pairs[1..])
    requires es == [Some(pairs[0])] + rest
    ensures EntriesOfPairs(es, pairs)
  {
    forall i | 1 <= i < |pairs|
      ensures es[i] == Some(pairs[i])
    {
      assert rest[i - 1] == Some(pairs[1..][i - 1]);
    }
  }


  /** Some pair with key `k` is the last one with that key. */
  lemma {:induction false} LastPairWithKey(pairs: seq<(string, string)>, k: string) returns (i: nat)
    requires exists j :: 0 <= j < |pairs| && pairs[j].0 == k
    ensures i < |pairs| && pairs[i].0 == k
    ensures forall j :: i < j < |pairs| ==> pairs[j].0 != k
  {
    var n := |pairs| - 1;
    if pairs[n].0 == k {
      i := n;
    } else {
      var init := pairs[..n];
      var j :| 0 <= j < |pairs| && pairs[j].0 == k;
      assert init[j].0 == k;
      i := LastPairWithKey(init, k);
      assert pairs[i] == init[i];
      forall j | i < j < |pairs|
        ensures pairs[j].0 != k
      {
        if j < n {
          assert pairs[j] == init[j];
        }
      }
    }
  }

  /** Over the entries of a written column, a key is mentioned exactly
      when a pair has it. */
  lemma MentionsOfPairs(es: seq<Option<(string, string)>>, pairs: seq<(string, string)>, k: string)
    requires EntriesOfPairs(es, pairs)
    ensures Mentions(es, k) <==> exists i :: 0 <= i < |pairs| && pairs[i].0 == k
  {
    if Mentions(es, k) {
      var i :| 0 <= i < |es| && Defines(es[i], k);
      assert i < |pairs| && pairs[i].0 == k;
    }
    if exists i :: 0 <= i < |pairs| && pairs[i].0 == k {
      var i :| 0 <= i < |pairs| && pairs[i].0 == k;
      assert Defines(es[i], k);
    }
  }

  /** Over the entries of a written column, the last pair with a key is
      that key's last definition. */
  lemma LastDefinitionOfPairs(es: seq<Option<(string, string)>>, pairs: seq<(string, string)>, i: nat)
    requires EntriesOfPairs(es, pairs)
    requires i < |pairs|
    requires forall j :: i < j < |pairs| ==> pairs[j].0 != pairs[i].0
    ensures LastDefinition(es, i, pairs[i].0) && Value(es[i]) == pairs[i].1
  {
    forall j | i < j < |es|
      ensures !Defines(es[j], pairs[i].0)
    {
    }
  }

  /** Reading a written column gives the map of its pairs (a later pair
      overriding an earlier one with the same key) without `uid`. */
  lemma AttributeTextMap(pairs: seq<(string, string)>, parseUid: string -> Option<Uid>, generated: FreshUid)
    requires forall i :: 0 <= i < |pairs| ==> WritablePair(pairs[i])
    requires ParseGtfAttributes(AttributeText(pairs), parseUid, generated).Success?
    ensures ParseGtfAttributes(AttributeText(pairs), parseUid, generated).value.1 == LastWins(pairs) - {UID_KEY}
  {
    EntriesOfWritten(pairs);
    CollectMapOfPairs(Entries(AttributeText(pairs)), pairs, parseUid, generated);
  }

  /** The map read from the entries of written pairs. */
  lemma CollectMapOfPairs(
    es: seq<Option<(string, string)>>,
    pairs: seq<(string, string)>,
    parseUid: string -> Option<Uid>,
    generated: FreshUid)
    requires EntriesOfPairs(es, pairs)
    requires Collect(es, parseUid, generated).Success?
    ensures Collect(es, parseUid, generated).value.1 == LastWins(pairs) - {UID_KEY}
  {
    AbsorbAttributes(es, parseUid, NIL, map[]);
    var m := Collect(es, parseUid, generated).value.1;
    var expected := LastWins(pairs) - {UID_KEY};
    forall k
      ensures k in m <==> k in expected
      ensures k in m ==> m[k] == expected[k]
    {
      MentionsOfPairs(es, pairs, k);
      LastWinsKeys(pairs, k);
      if k in m {
        var i := LastPairWithKey(pairs, k);
        LastDefinitionOfPairs(es, pairs, i);
        LastWinsValue(pairs, i);
      }
    }
  }

  /** The entries of a written column, without padding. */
  lemma EntriesOfWritten(pairs: seq<(string, string)>)
    requires forall i :: 0 <= i < |pairs| ==> WritablePair(pairs[i])
    ensures EntriesOfPairs(Entries(AttributeText(pairs)), pairs)
  {
    assert "" + AttributeText(pairs) == AttributeText(pairs);
    EntriesOfText(pairs, "");
  }

  /** Reading a written column gives the identifier of its last `uid`
      pair, or the generated one when there is none or it is nil; it fails
      exactly when a `uid` pair does not parse, on the first such pair. */
  lemma AttributeTextUid(pairs: seq<(string, string)>, parseUid: string -> Option<Uid>, generated: FreshUid)
    requires forall i :: 0 <= i < |pairs| ==> WritablePair(pairs[i])
    ensures UidOfPairs(pairs, parseUid, generated, ParseGtfAttributes(AttributeText(pairs), parseUid, generated))
  {
    EntriesOfWritten(pairs);
    CollectUidOfPairs(Entries(AttributeText(pairs)), pairs, parseUid, generated);
  }

  /** The identifier outcome of reading a column written from `pairs`. */
  predicate UidOfPairs(
    pairs: seq<(string, string)>,
    parseUid: string -> Option<Uid>,
    generated: FreshUid,
    r: Result<(Uid, map<string, string>), GtfError>)
  {
    && (r.Success? <==> forall i :: 0 <= i < |pairs| && pairs[i].0 == UID_KEY ==> parseUid(pairs[i].1).Some?)
    && (r.Success? && UID_KEY !in LastWins(pairs) ==> r.value.0 == generated)
    && (r.Success? && UID_KEY in LastWins(pairs) ==>
          var u := parseUid(LastWins(pairs)[UID_KEY]);
          u.Some? && r.value.0 == if u.value.IsNil() then generated else u.value)
    && (r.Failure? ==> exists i :: && 0 <= i < |pairs| && pairs[i].0 == UID_KEY
                                   && parseUid(pairs[i].1).None? && r.error == BadUid(pairs[i].1)
                                   && forall j :: 0 <= j < i && pairs[j].0 == UID_KEY ==> parseUid(pairs[j].1).Some?)
  }

  /** The identifier read from the entries of written pairs. */
  lemma CollectUidOfPairs(
    es: seq<Option<(string, string)>>,
    pairs: seq<(string, string)>,
    parseUid: string -> Option<Uid>,
    generated: FreshUid)
    requires EntriesOfPairs(es, pairs)
    ensures UidOfPairs(pairs, parseUid, generated, Collect(es, parseUid, generated))
  {
    AbsorbOutcome(es, parseUid, NIL, map[]);
    MentionsOfPairs(es, pairs, UID_KEY);
    LastWinsKeys(pairs, UID_KEY);
    assert forall i :: 0 <= i < |pairs| ==> (UidParses(es[i], parseUid) <==> (pairs[i].0 == UID_KEY ==> parseUid(pairs[i].1).Some?));
    assert UidParses(es[|pairs|], parseUid);
    if Absorb(es, parseUid, NIL, map[]).Success? {
      AbsorbUid(es, parseUid, NIL, map[]);
      if UID_KEY in LastWins(pairs) {
        var i := LastPairWithKey(pairs, UID_KEY);
        LastDefinitionOfPairs(es, pairs, i);
        LastWinsValue(pairs, i);
      }
    }
  }

  /** A typical column: a `gene_id` and a `uid` pair give the identifier
      the uid text parses to, and a map holding only `gene_id`. */
  lemma GeneIdAndUid(uidText: string, u: Uid, parseUid: string -> Option<Uid>, generated: FreshUid)
    requires ';' !in uidText
    requires uidText == [] || (uidText[0] != '"' && uidText[|uidText| - 1] != '"')
    requires parseUid(uidText) == Some(u) && !u.IsNil()
    ensures ParseGtfAttributes("gene_id \"ABC\"; uid \"" + uidText + "\";", parseUid, generated)
      == Success((u, map["gene_id" := "ABC"]))
  {
    var pairs := [("gene_id", "ABC"), (UID_KEY, uidText)];
    GeneIdAndUidText(uidText);
    GeneIdAndUidPairs(uidText);
    assert pairs[0].0 != UID_KEY;
    AttributeTextRoundTrip(pairs, parseUid, generated, u);
  }

  /** A written column whose `uid` pairs all parse, the last one to a
      non-nil identifier, reads back as that identifier and the map of the
      other pairs. */
  lemma AttributeTextRoundTrip(
    pairs: seq<(string, string)>,
    parseUid: string -> Option<Uid>,
    generated: FreshUid,
    u: Uid)
    requires forall i :: 0 <= i < |pairs| ==> WritablePair(pairs[i])
    requires forall i :: 0 <= i < |pairs| && pairs[i].0 == UID_KEY ==> parseUid(pairs[i].1).Some?
    requires UID_KEY in LastWins(pairs) && parseUid(LastWins(pairs)[UID_KEY]) == Some(u) && !u.IsNil()
    ensures ParseGtfAttributes(AttributeText(pairs), parseUid, generated) == Success((u, LastWins(pairs) - {UID_KEY}))
  {
    var r := ParseGtfAttributes(AttributeText(pairs), parseUid, generated);
    AttributeTextUid(pairs, parseUid, generated);
    AttributeTextMap(pairs, parseUid, generated);
    assert r.value == (u, LastWins(pairs) - {UID_KEY});
  }

  /** The two pairs written as a column. */
  lemma GeneIdAndUidText(uidText: string)
    ensures AttributeText([("gene_id", "ABC"), (UID_KEY, uidText)]) == "gene_id \"ABC\"; uid \"" + uidText + "\";"
  {
    var pairs := [("gene_id", "ABC"), (UID_KEY, uidText)];
    assert pairs[1..] == [(UID_KEY, uidText)];
    assert AttributeText(pairs[1..]) == Quoted((UID_KEY, uidText)) + ";";
  }

  /** The two pairs are writable, and their map. */
  lemma GeneIdAndUidPairs(uidText: string)
    requires ';' !in uidText
    requires uidText == [] || (uidText[0] != '"' && uidText[|uidText| - 1] != '"')
    ensures var pairs := [("gene_id", "ABC"), (UID_KEY, uidText)];
      && (forall i :: 0 <= i < |pairs| ==> WritablePair(pairs[i]))
      && LastWins(pairs) == map["gene_id" := "ABC", UID_KEY := uidText]
      && LastWins(pairs) - {UID_KEY} == map["gene_id" := "ABC"]
  {
    var pairs := [("gene_id", "ABC"), (UID_KEY, uidText)];
    assert WritablePair(pairs[0]) && WritablePair(pairs[1]);
    assert pairs[..1] == [("gene_id", "ABC")];
    assert pairs[..1][..0] == [];
    assert LastWins(pairs[..1]) == map["gene_id" := "ABC"];
    assert LastWins(pairs) == LastWins(pairs[..1])[UID_KEY := uidText];
  }

  // ---------------------------------------------------------------------
  // The record line
  // ---------------------------------------------------------------------

  /** The columns of a line: the line is trimmed and loses its trailing
      `;` characters, is cut at tabs into at most nine pieces (the ninth
      keeps any further tabs), and every piece is trimmed. */
  function Columns(line: string): (cols: seq<string>)
    ensures 1 <= |cols| <= 9
  {
    TrimAll(SplitN(TrimEndMatches(Trim(line), ';'), 9, '\t'))
  }

  /** A line has nine columns exactly when its trimmed text holds at least
      eight tabs. */
  lemma ColumnCount(line: string)
    ensures |Columns(line)| < 9 <==> Occurrences(TrimEndMatches(Trim(line), ';'), '\t') < 8
  {
    SplitNCount(TrimEndMatches(Trim(line), ';'), 9, '\t');
  }

  /** Any line: its columns are the trimmed pieces of a cut of the
      trimmed, `;`-stripped text at tabs into at most nine pieces that
      join back into that text; no column but the ninth holds a tab. */
  lemma ColumnsOfAnyLine(line: string)
    ensures var cols := Columns(line);
      && (exists pieces :: && SplitNWellCut(TrimEndMatches(Trim(line), ';'), 9, '\t', pieces)
                           && |pieces| == |cols|
                           && forall i :: 0 <= i < |cols| ==> cols[i] == Trim(pieces[i]))
      && (forall i :: 0 <= i < |cols| - 1 ==> '\t' !in cols[i])
      && (|cols| < 9 ==> '\t' !in cols[|cols| - 1])
  {
    TrimmedSplitN(TrimEndMatches(Trim(line), ';'), 9, '\t');
  }

  lemma {:induction false} JoinEnds(parts: seq<string>, sep: string)
    requires |parts| >= 1
    requires forall i :: 0 <= i < |parts| ==> |parts[i]| > 0
    ensures var s := Join(parts, sep);
      |s| > 0 && s[0] == parts[0][0] && s[|s| - 1] == parts[|parts| - 1][|parts[|parts| - 1]| - 1]
  {
    if |parts| > 1 {
      JoinEnds(parts[1..], sep);
    }
  }

  /** Nine trimmed columns joined by tabs come back unchanged; the ninth
      may itself contain tabs. */
  lemma ColumnsOfJoinedLine(cols: seq<string>)
    requires |cols| == 9
    requires forall i :: 0 <= i < 8 ==> '\t' !in cols[i]
    requires forall i :: 0 <= i < 9 ==> |cols[i]| > 0 && !IsWhitespace(cols[i][0]) && !IsWhitespace(cols[i][|cols[i]| - 1])
    requires cols[8][|cols[8]| - 1] != ';'
    ensures Columns(Join(cols, "\t")) == cols
  {
    var line := Join(cols, "\t");
    JoinEnds(cols, "\t");
    assert Trim(line) == line;
    assert TrimEndMatches(line, ';') == line;
    SplitNJoin(cols, 9, '\t');
    var pieces := SplitN(line, 9, '\t');
    assert pieces == cols;
    TrimAllTrimmed(cols);
  }

  /** `parse_gtf_line`: a record from one line, or the fatal error that
      stops the program. */
  function ParseGtfLine(line: string, p: FieldParsers, generated: FreshUid): Result<Annotation, GtfError> {
    var cols := Columns(line);
    if |cols| < 9 then Failure(TooFewFields(|cols|))
    else
      var parsed :- ParseGtfAttributes(cols[8], p.uid, generated);
      var start :- p.position(cols[3]).OrFail(BadStart(cols[3]));
      var end :- p.position(cols[4]).OrFail(BadEnd(cols[4]));
      var phase :- p.phase(cols[7]).OrFail(BadPhase(cols[7]));
      Success(Annotation(
        seqId := cols[0],
        source := cols[1],
        featureType := cols[2],
        start := start,
        end := end,
        score := p.score(cols[5]).GetOr(ZERO_SCORE),
        strand := p.strand(cols[6]),
        phase := phase,
        uid := parsed.0,
        taxonId := 0,
        attributes := parsed.1))
  }

  /** The outcome of parsing a line. Fewer than nine columns is fatal;
      then, in the program's order, an unparsable `uid` attribute, start,
      end or phase is fatal, while an unparsable score is not an error and
      becomes `0.`. A parsed record has a non-nil identifier, no `uid` key
      in its map, and a typed `taxon_id` of 0 whatever the attributes say:
      a `taxon_id` attribute stays in the generic map. */
  lemma LineOutcome(line: string, p: FieldParsers, generated: FreshUid)
    ensures var cols := Columns(line);
      var r := ParseGtfLine(line, p, generated);
      && (|cols| < 9 ==> r == Failure(TooFewFields(|cols|)))
      && (|cols| == 9 ==>
            var attrs := ParseGtfAttributes(cols[8], p.uid, generated);
            && (attrs.Failure? ==> r == Failure(attrs.error))
            && (attrs.Success? && p.position(cols[3]).None? ==> r == Failure(BadStart(cols[3])))
            && (attrs.Success? && p.position(cols[3]).Some? && p.position(cols[4]).None? ==> r == Failure(BadEnd(cols[4])))
            && (attrs.Success? && p.position(cols[3]).Some? && p.position(cols[4]).Some? && p.phase(cols[7]).None? ==>
                  r == Failure(BadPhase(cols[7])))
            && (r.Success? <==>
                  attrs.Success? && p.position(cols[3]).Some? && p.position(cols[4]).Some? && p.phase(cols[7]).Some?))
      && (r.Success? ==>
            && r.value.seqId == cols[0]
            && r.value.source == cols[1]
            && r.value.featureType == cols[2]
            && r.value.score == p.score(cols[5]).GetOr(ZERO_SCORE)
            && r.value.strand == p.strand(cols[6])
            && r.value.start == p.position(cols[3]).value
            && r.value.end == p.position(cols[4]).value
            && r.value.phase == p.phase(cols[7]).value
            && r.value.taxonId == 0
            && !r.value.uid.IsNil()
            && UID_KEY !in r.value.attributes
            && r.value.uid == ParseGtfAttributes(cols[8], p.uid, generated).value.0
            && r.value.attributes == ParseGtfAttributes(cols[8], p.uid, generated).value.1)
  {
  }

  // ---------------------------------------------------------------------
  // The reader
  // ---------------------------------------------------------------------

  /** A line parser: line text and line index to a record or an error. */
  type LineParser = (string, nat) -> Result<Annotation, GtfError>

  /** `GtfReader::next` driven to the end: `#` lines are skipped, a `>`
      line (the start of inline sequence data) ends the records, any
      other line is parsed. */
  function ReadFrom(lines: seq<string>, i: nat, parse: LineParser): Result<seq<Annotation>, GtfError>
    decreases |lines| - i
  {
    if i >= |lines| then Success([])
    else if StartsWith(lines[i], "#") then ReadFrom(lines, i + 1, parse)
    else if StartsWith(lines[i], ">") then Success([])
    else
      var a :- parse(lines[i], i);
      var rest :- ReadFrom(lines, i + 1, parse);
      Success([a] + rest)
  }

  /** `parse_gtf_line` with the identifier `Uuid::new_v4` would supply
      while parsing line `k`. */
  function GtfLineParser(p: FieldParsers, generated: nat -> FreshUid): LineParser {
    (line: string, k: nat) => ParseGtfLine(line, p, generated(k))
  }

  /** The records of a GTF text given as its lines. */
  function ReadGtf(lines: seq<string>, p: FieldParsers, generated: nat -> FreshUid): Result<seq<Annotation>, GtfError> {
    ReadFrom(lines, 0, GtfLineParser(p, generated))
  }

  /** Index of the first line that starts inline sequence data, or the
      number of lines when there is none. */
  function SequenceStart(lines: seq<string>): (n: nat)
    ensures n <= |lines|
  {
    if |lines| == 0 then 0
    else if StartsWith(lines[0], ">") then 0
    else 1 + SequenceStart(lines[1..])
  }

  /** No line before `SequenceStart` starts sequence data; the line at it
      does, unless there is none. */
  lemma {:induction false} SequenceStartIsFirst(lines: seq<string>)
    ensures var n := SequenceStart(lines);
      && (forall j :: 0 <= j < n ==> !StartsWith(lines[j], ">"))
      && (n < |lines| ==> StartsWith(lines[n], ">"))
  {
    if |lines| > 0 && !StartsWith(lines[0], ">") {
      var tail := lines[1..];
      SequenceStartIsFirst(tail);
      forall j | 1 <= j < SequenceStart(lines)
        ensures !StartsWith(lines[j], ">")
      {
        assert lines[j] == tail[j - 1];
      }
      if SequenceStart(lines) < |lines| {
        assert lines[SequenceStart(lines)] == tail[SequenceStart(tail)];
      }
    }
  }

  /** The indices in `[i, cut)` of the lines that are not comments, in
      increasing order. */
  function RecordLinesFrom(lines: seq<string>, i: nat, cut: nat): (ks: seq<nat>)
    requires cut <= |lines|
    ensures forall t :: 0 <= t < |ks| ==> i <= ks[t] < cut
    decreases cut - i
  {
    if i >= cut then []
    else if StartsWith(lines[i], "#") then RecordLinesFrom(lines, i + 1, cut)
    else [i] + RecordLinesFrom(lines, i + 1, cut)
  }

  /** The record lines are exactly the non-comment lines of `[i, cut)`,
      in increasing order. */
  lemma {:induction false} RecordLinesFromExact(lines: seq<string>, i: nat, cut: nat)
    requires cut <= |lines|
    ensures var ks := RecordLinesFrom(lines, i, cut);
      && (forall t :: 0 <= t < |ks| ==> !StartsWith(lines[ks[t]], "#"))
      && (forall t, u :: 0 <= t < u < |ks| ==> ks[t] < ks[u])
      && (forall j :: i <= j < cut && !StartsWith(lines[j], "#") ==> j in ks)
    decreases cut - i
  {
    if i < cut {
      RecordLinesFromExact(lines, i + 1, cut);
    }
  }

  /** The lines that hold records: not comments, before the first `>`. */
  function RecordLines(lines: seq<string>): seq<nat> {
    RecordLinesFrom(lines, 0, SequenceStart(lines))
  }

  /** The reference reading: parse the given lines one after the other,
      stopping at the first error. */
  function ParseEach(lines: seq<string>, ks: seq<nat>, parse: LineParser): Result<seq<Annotation>, GtfError>
    requires forall t :: 0 <= t < |ks| ==> ks[t] < |lines|
  {
    if |ks| == 0 then Success([])
    else
      var a :- parse(lines[ks[0]], ks[0]);
      var rest :- ParseEach(lines, ks[1..], parse);
      Success([a] + rest)
  }

  /** Reading from line `i` parses exactly the record lines from `i` on. */
  lemma {:induction false} ReadFromParsesRecordLines(lines: seq<string>, i: nat, parse: LineParser)
    requires i <= SequenceStart(lines)
    ensures ReadFrom(lines, i, parse) == ParseEach(lines, RecordLinesFrom(lines, i, SequenceStart(lines)), parse)
    decreases |lines| - i
  {
    var cut := SequenceStart(lines);
    SequenceStartIsFirst(lines);
    if i < cut {
      ReadFromParsesRecordLines(lines, i + 1, parse);
      ReadStep(lines, i, cut, parse);
    } else if i < |lines| {
      assert lines[i][0] == '>';
    }
  }

  /** One line of the reader before the sequence data: a comment adds
      nothing, any other line is parsed ahead of the rest. */
  lemma ReadStep(lines: seq<string>, i: nat, cut: nat, parse: LineParser)
    requires i < cut <= |lines| && !StartsWith(lines[i], ">")
    requires ReadFrom(lines, i + 1, parse) == ParseEach(lines, RecordLinesFrom(lines, i + 1, cut), parse)
    ensures ReadFrom(lines, i, parse) == ParseEach(lines, RecordLinesFrom(lines, i, cut), parse)
  {
    var rest := RecordLinesFrom(lines, i + 1, cut);
    if !StartsWith(lines[i], "#") {
      var ks := RecordLinesFrom(lines, i, cut);
      assert ks == [i] + rest;
      assert ks[0] == i && ks[1..] == rest;
    }
  }

  /** Parsing a list of lines succeeds exactly when every line parses,
      yields their records in order, and otherwise reports the error of
      the first line that does not parse. */
  lemma {:induction false} ParseEachOutcome(lines: seq<string>, ks: seq<nat>, parse: LineParser)
    requires forall t :: 0 <= t < |ks| ==> ks[t] < |lines|
    ensures var r := ParseEach(lines, ks, parse);
      && (r.Success? <==> forall t :: 0 <= t < |ks| ==> parse(lines[ks[t]], ks[t]).Success?)
      && (r.Success? ==> |r.value| == |ks| && forall t :: 0 <= t < |ks| ==>
            r.value[t] == parse(lines[ks[t]], ks[t]).value)
      && (r.Failure? ==> exists t :: (0 <= t < |ks| && parse(lines[ks[t]], ks[t]).Failure?
            && r.error == parse(lines[ks[t]], ks[t]).error
            && forall u :: 0 <= u < t ==> parse(lines[ks[u]], ks[u]).Success?))
  {
    if |ks| > 0 {
      var rest := ks[1..];
      ParseEachOutcome(lines, rest, parse);
      var r := ParseEach(lines, ks, parse);
      assert forall t :: 0 < t < |ks| ==> ks[t] == rest[t - 1];
      if parse(lines[ks[0]], ks[0]).Success? && r.Failure? {
        var t :| 0 <= t < |rest| && parse(lines[rest[t]], rest[t]).Failure?
          && r.error == parse(lines[rest[t]], rest[t]).error
          && forall u :: 0 <= u < t ==> parse(lines[rest[u]], rest[u]).Success?;
        assert ks[t + 1] == rest[t];
      }
    }
  }

  /** The reader yields, in input order, the parse of every line that is
      not a comment and comes before the first `>` line; it fails exactly
      when one of those lines does not parse, with the error of the first
      such line. */
  lemma ReadGtfRecords(lines: seq<string>, p: FieldParsers, generated: nat -> FreshUid)
    ensures var ks := RecordLines(lines);
      var r := ReadGtf(lines, p, generated);
      && (r.Success? <==> forall t :: 0 <= t < |ks| ==> ParseGtfLine(lines[ks[t]], p, generated(ks[t])).Success?)
      && (r.Success? ==> |r.value| == |ks| && forall t :: 0 <= t < |ks| ==>
            r.value[t] == ParseGtfLine(lines[ks[t]], p, generated(ks[t])).value)
      && (r.Failure? ==> exists t :: (0 <= t < |ks| && ParseGtfLine(lines[ks[t]], p, generated(ks[t])).Failure?
            && r.error == ParseGtfLine(lines[ks[t]], p, generated(ks[t])).error
            && forall u :: 0 <= u < t ==> ParseGtfLine(lines[ks[u]], p, generated(ks[u])).Success?))
  {
    var parse := GtfLineParser(p, generated);
    ReadFromParsesRecordLines(lines, 0, parse);
    ParseEachOutcome(lines, RecordLines(lines), parse);
  }
}

=== FILE: numerals.dfy ===
/** Positional renderings of numbers: the decimal `to_string` of Rust's
    integer types and the fixed-width lowercase hexadecimal the uuid
    crate uses, each with the reading that inverts it. */
module Numerals {

  /** Lowercase digit for a value below 16. */
  function DigitChar(d: nat): (c: char)
    requires d < 16
  {
    "0123456789abcdef"[d]
  }

  predicate IsDecimalDigit(c: char) {
    '0' <= c <= '9'
  }

  predicate IsHexDigit(c: char) {
    '0' <= c <= '9' || 'a' <= c <= 'f'
  }

  /** Value of a lowercase hexadecimal (hence also decimal) digit. */
  function DigitValue(c: char): nat {
    if '0' <= c <= '9' then (c as int) - ('0' as int)
    else if 'a' <= c <= 'f' then (c as int) - ('a' as int) + 10
    else 0
  }

  lemma DigitRoundTrip(d: nat)
    requires d < 16
    ensures IsHexDigit(DigitChar(d)) && DigitValue(DigitChar(d)) == d
    ensures d < 10 ==> IsDecimalDigit(DigitChar(d))
  {
  }

  /** Reads a digit string in the given base, most significant digit first. */
  function ValueIn(s: string, base: nat): nat {
    if |s| == 0 then 0
    else ValueIn(s[..|s| - 1], base) * base + DigitValue(s[|s| - 1])
  }

  /** `to_string` of an unsigned integer: shortest decimal rendering. */
  function NatText(n: nat): (s: string)
    ensures |s| >= 1
    ensures forall i :: 0 <= i < |s| ==> IsDecimalDigit(s[i])
    ensures s[0] == '0' ==> n == 0
  {
    if n < 10 then [DigitChar(n)]
    else NatText(n / 10) + [DigitChar(n % 10)]
  }

  /** Reading back a decimal rendering gives the number rendered. */
  lemma {:induction false} NatTextRoundTrip(n: nat)
    ensures ValueIn(NatText(n), 10) == n
  {
    if n >= 10 {
      var prefix := NatText(n / 10);
      NatTextRoundTrip(n / 10);
      assert (prefix + [DigitChar(n % 10)])[..|prefix|] == prefix;
    }
  }

  /** `to_string` of a signed integer: a minus sign before the magnitude. */
  function IntText(i: int): (s: string)
    ensures |s| >= 1
    ensures s[0] == '-' <==> i < 0
  {
    if i < 0 then "-" + NatText(-i) else NatText(i)
  }

  /** Reads a rendering produced by `IntText`. */
  function IntValue(s: string): int {
    if |s| > 0 && s[0] == '-' then -(ValueIn(s[1..], 10) as int) else ValueIn(s, 10)
  }

  lemma IntTextRoundTrip(i: int)
    ensures IntValue(IntText(i)) == i
  {
    if i < 0 {
      NatTextRoundTrip(-i);
      assert IntText(i)[1..] == NatText(-i);
    } else {
      NatTextRoundTrip(i);
    }
  }

  function Pow16(n: nat): (p: nat)
    ensures p >= 1
  {
    if n == 0 then 1 else 16 * Pow16(n - 1)
  }

  lemma {:induction false} Pow16Add(a: nat, b: nat)
    ensures Pow16(a + b) == Pow16(a) * Pow16(b)
  {
    if a > 0 {
      Pow16Add(a - 1, b);
    }
  }

  /** Exactly `width` lowercase hexadecimal digits of `v`, zero-padded. */
  function HexText(v: nat, width: nat): (s: string)
    requires v < Pow16(width)
    ensures |s| == width
    ensures forall i :: 0 <= i < |s| ==> IsHexDigit(s[i])
  {
    if width == 0 then []
    else HexText(v / 16, width - 1) + [DigitChar(v % 16)]
  }

  /** Reading back a hexadecimal rendering gives the number rendered. */
  lemma {:induction false} HexTextRoundTrip(v: nat, width: nat)
    requires v < Pow16(width)
    ensures ValueIn(HexText(v, width), 16) == v
  {
    if width > 0 {
      var prefix := HexText(v / 16, width - 1);
      HexTextRoundTrip(v / 16, width - 1);
      assert (prefix + [DigitChar(v % 16)])[..|prefix|] == prefix;
      DigitRoundTrip(v % 16);
    }
  }
}

=== FILE: remove.dfy ===
/** `rm`: removes attributes from the records a uid filter selects. The
    requested keys are collected into a set and visited in its iteration
    order; `taxon_id` resets the typed field to 0, every other key is
    removed from the generic map. Removal cannot fail. */
module Remove {
  import opened Annotations

  /** The options of `rm` once the arguments are parsed. */
  datatype RemoveOptions = RemoveOptions(keys: set<string>, uidFilter: set<string>)

  /** One iteration of the loop over the requested keys. */
  function Step(a: Annotation, key: string): Annotation {
    if key == TAXON_KEY then a.(taxonId := 0)
    else a.(attributes := a.attributes - {key})
  }

  /** The loop over the requested keys, in the order `order`. */
  function RemoveKeys(a: Annotation, order: seq<string>): Annotation
    decreases |order|
  {
    if |order| == 0 then a
    else RemoveKeys(Step(a, order[0]), order[1..])
  }

  /** The per-record body of `remove_command`, visiting the requested set
      in its iteration order `order`. */
  function RemoveAttributes(a: Annotation, options: RemoveOptions, order: seq<string>): Annotation {
    if Selected(a, options.uidFilter) then RemoveKeys(a, order) else a
  }

  /** The reference outcome of removing the keys `keys` at once. */
  function Reference(a: Annotation, keys: set<string>): Annotation {
    a.(attributes := a.attributes - (keys - {TAXON_KEY}),
       taxonId := if TAXON_KEY in keys then 0 else a.taxonId)
  }

  /** The loop ends in the reference outcome whatever order it visits the
      keys in, and even when a key is visited more than once. */
  lemma {:induction false} RemoveKeysIsReference(a: Annotation, order: seq<string>)
    decreases |order|
    ensures RemoveKeys(a, order) == Reference(a, Elements(order))
  {
    if |order| == 0 {
      assert Elements(order) == {};
      assert a.attributes - ({} - {TAXON_KEY}) == a.attributes;
    } else {
      var key := order[0];
      var rest := order[1..];
      assert Elements(order) == {key} + Elements(rest);
      RemoveKeysIsReference(Step(a, key), rest);
      var all := Elements(order);
      var left := Step(a, key).attributes - (Elements(rest) - {TAXON_KEY});
      var right := a.attributes - (all - {TAXON_KEY});
      assert left == right;
    }
  }

  /** What `rm` does to one record, for any iteration order of the
      requested set: outside the uid filter nothing changes; inside it the
      generic map loses exactly the requested keys other than `taxon_id`,
      `taxon_id` is reset to 0 exactly when requested, and every other
      typed field is unchanged. */
  lemma RemoveOutcome(a: Annotation, options: RemoveOptions, order: seq<string>)
    requires Elements(order) == options.keys
    ensures var b := RemoveAttributes(a, options, order);
      && (!Selected(a, options.uidFilter) ==> b == a)
      && (Selected(a, options.uidFilter) ==>
            && (forall k :: k in b.attributes <==> k in a.attributes && (k !in options.keys || k == TAXON_KEY))
            && (forall k :: k in b.attributes ==> b.attributes[k] == a.attributes[k])
            && b.taxonId == (if TAXON_KEY in options.keys then 0 else a.taxonId)
            && b.(attributes := a.attributes, taxonId := a.taxonId) == a)
  {
    RemoveKeysIsReference(a, order);
  }

  /** The iteration order of the requested set does not matter. */
  lemma RemoveOrderIndependent(a: Annotation, options: RemoveOptions, order1: seq<string>, order2: seq<string>)
    requires Elements(order1) == options.keys && Elements(order2) == options.keys
    ensures RemoveAttributes(a, options, order1) == RemoveAttributes(a, options, order2)
  {
    RemoveKeysIsReference(a, order1);
    RemoveKeysIsReference(a, order2);
  }

  /** Removing the same keys a second time changes nothing. */
  lemma RemoveIdempotent(a: Annotation, options: RemoveOptions, order: seq<string>)
    requires Elements(order) == options.keys
    ensures var b := RemoveAttributes(a, options, order);
      RemoveAttributes(b, options, order) == b
  {
    var b := RemoveAttributes(a, options, order);
    RemoveKeysIsReference(a, order);
    RemoveKeysIsReference(b, order);
    if Selected(a, options.uidFilter) {
      var removed := options.keys - {TAXON_KEY};
      assert b.attributes - removed == b.attributes;
    }
  }
}

=== FILE: strings.dfy ===
/** The `str` operations of Rust's standard library that the annotation
    code relies on: `split`, `split_once`, `splitn`, `trim`,
    `trim_matches`, `trim_end_matches`, `starts_with` and `join`. */
module Strings {
  import opened Wrappers

  /** Rust's `char::is_whitespace`: the Unicode White_Space property. */
  predicate IsWhitespace(c: char) {
    || c == ' '
    || '\t' <= c <= '\r'
    || c == '\U{85}'
    || c == '\U{A0}'
    || c == '\U{1680}'
    || '\U{2000}' <= c <= '\U{200A}'
    || c == '\U{2028}'
    || c == '\U{2029}'
    || c == '\U{202F}'
    || c == '\U{205F}'
    || c == '\U{3000}'
  }

  /** `str::starts_with` with a string pattern; every string starts with "". */
  predicate StartsWith(s: string, prefix: string) {
    prefix <= s
  }

  /** Number of occurrences of `c` in `s`. */
  function Occurrences(s: string, c: char): nat {
    if |s| == 0 then 0
    else (if s[0] == c then 1 else 0) + Occurrences(s[1..], c)
  }

  lemma {:induction false} OccurrencesAppend(a: string, b: string, c: char)
    ensures Occurrences(a + b, c) == Occurrences(a, c) + Occurrences(b, c)
  {
    if |a| > 0 {
      assert (a + b)[0] == a[0];
      assert (a + b)[1..] == a[1..] + b;
      OccurrencesAppend(a[1..], b, c);
    } else {
      assert a + b == b;
    }
  }

  lemma {:induction false} OccurrencesAbsent(s: string, c: char)
    ensures c !in s <==> Occurrences(s, c) == 0
  {
    if |s| > 0 {
      OccurrencesAbsent(s[1..], c);
      assert s == [s[0]] + s[1..];
    }
  }

  /** `slice.join(sep)`: the parts with `sep` between neighbours. */
  function Join(parts: seq<string>, sep: string): string {
    if |parts| == 0 then ""
    else if |parts| == 1 then parts[0]
    else parts[0] + sep + Join(parts[1..], sep)
  }

  /** `str::split_once(c)`: split at the first occurrence of `c`. */
  function SplitOnce(s: string, c: char): (r: Option<(string, string)>)
    ensures r.None? <==> c !in s
    ensures r.Some? ==> s == r.value.0 + [c] + r.value.1 && c !in r.value.0
  {
    if |s| == 0 then None
    else if s[0] == c then Some(([], s[1..]))
    else
      match SplitOnce(s[1..], c)
      case None => None
      case Some((key, rest)) => Some(([s[0]] + key, rest))
  }

  /** The first occurrence is the only place `split_once` can cut: any
      decomposition whose left part has no `c` is the one it returns. */
  lemma {:induction false} SplitOnceAt(key: string, value: string, c: char)
    requires c !in key
    ensures SplitOnce(key + [c] + value, c) == Some((key, value))
  {
    var s := key + [c] + value;
    if |key| == 0 {
      assert s == [c] + value;
      assert s[1..] == value;
    } else {
      assert s[0] == key[0];
      assert s[1..] == key[1..] + [c] + value;
      SplitOnceAt(key[1..], value, c);
      assert [key[0]] + key[1..] == key;
    }
  }

  /** `str::split(c)`: every maximal `c`-free piece, empty ones included. */
  function Split(s: string, c: char): (r: seq<string>)
    ensures |r| >= 1
    ensures Join(r, [c]) == s
    ensures forall i :: 0 <= i < |r| ==> c !in r[i]
    decreases |s|
  {
    match SplitOnce(s, c)
    case None => [s]
    case Some((key, rest)) =>
      var tail := Split(rest, c);
      assert ([key] + tail)[1..] == tail;
      [key] + tail
  }

  /** `split` cuts first at the first separator. */
  lemma SplitAt(key: string, rest: string, c: char)
    requires c !in key
    ensures Split(key + [c] + rest, c) == [key] + Split(rest, c)
  {
    SplitOnceAt(key, rest, c);
  }

  /** `split` yields one piece more than there are separators. */
  lemma {:induction false} SplitCount(s: string, c: char)
    ensures |Split(s, c)| == Occurrences(s, c) + 1
    decreases |s|
  {
    match SplitOnce(s, c)
    case None =>
      OccurrencesAbsent(s, c);
    case Some((key, rest)) =>
      SplitCount(rest, c);
      OccurrencesAppend(key + [c], rest, c);
      OccurrencesAppend(key, [c], c);
      OccurrencesAbsent(key, c);
      assert Occurrences([c], c) == 1 by {
        assert [c][1..] == [];
      }
  }

  /** Splitting undoes joining when no part contains the separator. */
  lemma {:induction false} SplitJoin(parts: seq<string>, c: char)
    requires |parts| >= 1
    requires forall i :: 0 <= i < |parts| ==> c !in parts[i]
    ensures Split(Join(parts, [c]), c) == parts
  {
    if |parts| == 1 {
      assert c !in parts[0];
    } else {
      var rest := Join(parts[1..], [c]);
      SplitOnceAt(parts[0], rest, c);
      SplitJoin(parts[1..], c);
      assert parts == [parts[0]] + parts[1..];
    }
  }

  /** `str::splitn(n, c)`: at most `n` pieces, the last holding the rest. */
  function SplitN(s: string, n: nat, c: char): (r: seq<string>)
    requires n >= 1
    ensures 1 <= |r| <= n
    decreases n
  {
    if n == 1 then [s]
    else
      match SplitOnce(s, c)
      case None => [s]
      case Some((key, rest)) => [key] + SplitN(rest, n - 1, c)
  }

  /** The pieces of `splitn` join back into the text; only the last may
      contain the separator, and only when all `n` pieces are present. */
  lemma {:induction false} SplitNPieces(s: string, n: nat, c: char)
    requires n >= 1
    ensures SplitNWellCut(s, n, c, SplitN(s, n, c))
    decreases n
  {
    if n > 1 && SplitOnce(s, c).Some? {
      var rest := SplitOnce(s, c).value.1;
      SplitNPieces(rest, n - 1, c);
      SplitNPiecesStep(s, n, c);
    }
  }

  /** The pieces `r` join back into `s`, and only the last may contain the
      separator, and only when there are `n` pieces. */
  predicate SplitNWellCut(s: string, n: nat, c: char, r: seq<string>) {
    && |r| >= 1
    && Join(r, [c]) == s
    && (forall i :: 0 <= i < |r| - 1 ==> c !in r[i])
    && (|r| < n ==> c !in r[|r| - 1])
  }

  lemma SplitNPiecesStep(s: string, n: nat, c: char)
    requires n > 1 && SplitOnce(s, c).Some?
    requires SplitNWellCut(SplitOnce(s, c).value.1, n - 1, c, SplitN(SplitOnce(s, c).value.1, n - 1, c))
    ensures SplitNWellCut(s, n, c, SplitN(s, n, c))
  {
    var key := SplitOnce(s, c).value.0;
    var rest := SplitOnce(s, c).value.1;
    var tail := SplitN(rest, n - 1, c);
    var r := SplitN(s, n, c);
    assert r == [key] + tail;
    assert r[1..] == tail;
    assert Join(r, [c]) == key + [c] + Join(tail, [c]);
    forall i | 1 <= i < |r| - 1
      ensures c !in r[i]
    {
      assert r[i] == tail[i - 1];
    }
    assert r[|r| - 1] == tail[|tail| - 1];
  }

  /** `splitn` gives as many pieces as `split` would, capped at `n`. */
  lemma {:induction false} SplitNCount(s: string, n: nat, c: char)
    requires n >= 1
    ensures |SplitN(s, n, c)| == if Occurrences(s, c) + 1 < n then Occurrences(s, c) + 1 else n
    decreases n
  {
    if n > 1 {
      var cut := SplitOnce(s, c);
      if cut.None? {
        OccurrencesAbsent(s, c);
      } else {
        var rest := cut.value.1;
        SplitNCount(rest, n - 1, c);
        SplitNCut(s, n, c);
      }
    }
  }

  /** One cut of `splitn`: a piece before the first separator, and at most
      `n - 1` pieces of the rest, which holds one separator fewer. */
  lemma SplitNCut(s: string, n: nat, c: char)
    requires n > 1 && SplitOnce(s, c).Some?
    ensures |SplitN(s, n, c)| == 1 + |SplitN(SplitOnce(s, c).value.1, n - 1, c)|
    ensures Occurrences(s, c) == Occurrences(SplitOnce(s, c).value.1, c) + 1
  {
    OccurrencesOfCut(s, c);
  }

  /** Cutting at the first separator leaves one separator fewer in the
      rest. */
  lemma OccurrencesOfCut(s: string, c: char)
    requires SplitOnce(s, c).Some?
    ensures Occurrences(s, c) == Occurrences(SplitOnce(s, c).value.1, c) + 1
  {
    var key := SplitOnce(s, c).value.0;
    var rest := SplitOnce(s, c).value.1;
    OccurrencesAppend(key + [c], rest, c);
    OccurrencesAppend(key, [c], c);
    OccurrencesAbsent(key, c);
    assert Occurrences([c], c) == 1 by {
      assert [c][1..] == [];
    }
  }

  /** Cutting a joined sequence into at most `n` pieces gives the pieces
      back, provided only the last one may contain the separator, and only
      when all `n` pieces are present. */
  lemma {:induction false} SplitNJoin(parts: seq<string>, n: nat, c: char)
    requires 1 <= |parts| <= n
    requires forall i :: 0 <= i < |parts| - 1 ==> c !in parts[i]
    requires |parts| < n ==> c !in parts[|parts| - 1]
    ensures SplitN(Join(parts, [c]), n, c) == parts
    decreases n
  {
    if |parts| == 1 {
      assert Join(parts, [c]) == parts[0];
      if n > 1 {
        assert SplitOnce(parts[0], c).None?;
      }
    } else {
      SplitNJoin(parts[1..], n - 1, c);
      SplitNJoinStep(parts, n, c);
    }
  }

  lemma SplitNJoinStep(parts: seq<string>, n: nat, c: char)
    requires 2 <= |parts| <= n
    requires c !in parts[0]
    requires SplitN(Join(parts[1..], [c]), n - 1, c) == parts[1..]
    ensures SplitN(Join(parts, [c]), n, c) == parts
  {
    var rest := Join(parts[1..], [c]);
    var s := Join(parts, [c]);
    assert s == parts[0] + [c] + rest;
    SplitOnceAt(parts[0], rest, c);
    assert SplitN(s, n, c) == [parts[0]] + SplitN(rest, n - 1, c);
    assert parts == [parts[0]] + parts[1..];
  }

  /** Drops every leading character satisfying `p`. */
  function TrimStart(s: string, p: char -> bool): (r: string)
    ensures |r| <= |s| && r == s[|s| - |r|..]
    ensures forall i :: 0 <= i < |s| - |r| ==> p(s[i])
    ensures r == [] || !p(r[0])
  {
    if |s| > 0 && p(s[0]) then TrimStart(s[1..], p) else s
  }

  /** Drops every trailing character satisfying `p`. */
  function TrimEnd(s: string, p: char -> bool): (r: string)
    ensures r <= s
    ensures forall i :: |r| <= i < |s| ==> p(s[i])
    ensures r == [] || !p(r[|r| - 1])
  {
    if |s| > 0 && p(s[|s| - 1]) then TrimEnd(s[..|s| - 1], p) else s
  }

  /** `str::trim`: strips leading and trailing whitespace. */
  function Trim(s: string): (r: string)
    ensures |r| <= |s|
    ensures r == [] || (!IsWhitespace(r[0]) && !IsWhitespace(r[|r| - 1]))
    ensures s == [] || (!IsWhitespace(s[0]) && !IsWhitespace(s[|s| - 1])) ==> r == s
  {
    TrimEnd(TrimStart(s, IsWhitespace), IsWhitespace)
  }

  /** Trimming only removes characters. */
  lemma TrimKeeps(s: string, c: char)
    ensures c in Trim(s) ==> c in s
  {
    var t := TrimStart(s, IsWhitespace);
    assert c in TrimEnd(t, IsWhitespace) ==> c in t;
  }

  /** Every piece trimmed, in order. */
  function TrimAll(parts: seq<string>): (r: seq<string>)
    ensures |r| == |parts|
  {
    if |parts| == 0 then [] else [Trim(parts[0])] + TrimAll(parts[1..])
  }

  /** Piece `i` of the result is piece `i` of the input, trimmed. */
  lemma {:induction false} TrimAllAt(parts: seq<string>)
    ensures forall i :: 0 <= i < |parts| ==> TrimAll(parts)[i] == Trim(parts[i])
  {
    if |parts| > 0 {
      TrimAllAt(parts[1..]);
      var r := TrimAll(parts);
      forall i | 1 <= i < |parts|
        ensures r[i] == Trim(parts[i])
      {
        assert r[i] == TrimAll(parts[1..])[i - 1];
        assert parts[1..][i - 1] == parts[i];
      }
    }
  }

  /** Trimming a first piece and then the rest. */
  lemma TrimAllCons(a: string, rest: seq<string>)
    ensures TrimAll([a] + rest) == [Trim(a)] + TrimAll(rest)
  {
    assert ([a] + rest)[1..] == rest;
  }

  /** Trimming a piece free of `c` leaves it free of `c`. */
  lemma TrimAllKeeps(parts: seq<string>, c: char)
    ensures forall i :: 0 <= i < |parts| && c !in parts[i] ==> c !in TrimAll(parts)[i]
  {
    TrimAllAt(parts);
    forall i | 0 <= i < |parts|
      ensures c in Trim(parts[i]) ==> c in parts[i]
    {
      TrimKeeps(parts[i], c);
    }
  }

  /** Trimming pieces free of `c` leaves them free of `c`. */
  lemma TrimAllFree(parts: seq<string>, c: char)
    requires forall i :: 0 <= i < |parts| ==> c !in parts[i]
    ensures forall i :: 0 <= i < |parts| ==> c !in TrimAll(parts)[i]
  {
    TrimAllKeeps(parts, c);
  }

  /** The trimmed pieces of `splitn`: each is the trim of a piece of a cut
      that joins back into the text; only the last may hold the separator,
      and only when all `n` pieces are present. */
  lemma TrimmedSplitN(s: string, n: nat, c: char)
    requires n >= 1
    ensures var r := TrimAll(SplitN(s, n, c));
      && (exists pieces :: && SplitNWellCut(s, n, c, pieces)
                           && |pieces| == |r|
                           && forall i :: 0 <= i < |r| ==> r[i] == Trim(pieces[i]))
      && (forall i :: 0 <= i < |r| - 1 ==> c !in r[i])
      && (|r| < n ==> c !in r[|r| - 1])
  {
    var pieces := SplitN(s, n, c);
    SplitNPieces(s, n, c);
    TrimAllAt(pieces);
    TrimAllKeeps(pieces, c);
  }

  /** Pieces without outer whitespace are left as they are. */
  lemma {:induction false} TrimAllTrimmed(parts: seq<string>)
    requires forall i :: 0 <= i < |parts| ==> |parts[i]| > 0 && !IsWhitespace(parts[i][0]) && !IsWhitespace(parts[i][|parts[i]| - 1])
    ensures TrimAll(parts) == parts
  {
    if |parts| > 0 {
      TrimAllTrimmed(parts[1..]);
      assert parts == [parts[0]] + parts[1..];
    }
  }

  /** `str::trim_matches(c)`: strips every leading and trailing `c`. */
  function TrimMatches(s: string, c: char): (r: string)
    ensures |r| <= |s|
    ensures r == [] || (r[0] != c && r[|r| - 1] != c)
  {
    TrimEnd(TrimStart(s, x => x == c), x => x == c)
  }

  /** `str::trim_end_matches(c)`: strips every trailing `c`. */
  function TrimEndMatches(s: string, c: char): (r: string)
    ensures r <= s
    ensures forall i :: |r| <= i < |s| ==> s[i] == c
    ensures r == [] || r[|r| - 1] != c
  {
    TrimEnd(s, x => x == c)
  }
}

=== FILE: table.dfy ===
/** `read_table` of the `table` command: the validation pass over a
    tab-separated table. The first `skip_lines` lines are ignored, lines
    that start with the comment string are skipped, and every other line
    must have at least `n_fields` tab-separated columns; the first that
    has fewer ends the pass with an error naming both counts. The table
    itself is never built, so a pass that finds no short line reaches the
    unfinished end of the function, modelled as `Validated`. */
module Table {
  import opened Strings

  datatype TableCheck =
    | Validated
    | TooFewColumns(expected: nat, found: nat)

  /** The number of columns of a line, counting empty ones. */
  function FieldCount(line: string): nat {
    |Split(line, '\t')|
  }

  /** A line the pass accepts: a comment, or one with enough columns. */
  predicate RowAccepted(line: string, comment: string, nFields: nat) {
    StartsWith(line, comment) || FieldCount(line) >= nFields
  }

  /** The loop of `read_table` over `lines` (the file's lines, without
      their terminators). */
  method ReadTable(lines: seq<string>, skip: nat, comment: string, nFields: nat) returns (r: TableCheck)
    ensures comment == "" ==> r.Validated?
    ensures r.Validated? <==> forall i :: skip <= i < |lines| ==> RowAccepted(lines[i], comment, nFields)
    ensures r.TooFewColumns? ==>
      && r.expected == nFields
      && r.found < nFields
      && exists i :: && skip <= i < |lines|
                     && !StartsWith(lines[i], comment)
                     && FieldCount(lines[i]) == r.found
                     && forall j :: skip <= j < i ==> RowAccepted(lines[j], comment, nFields)
  {
    var i := skip;
    while i < |lines|
      invariant skip <= i
      invariant forall j :: skip <= j < i && j < |lines| ==> RowAccepted(lines[j], comment, nFields)
    {
      var line := lines[i];
      if StartsWith(line, comment) {
        i := i + 1;
        continue;
      }
      var fields := Split(line, '\t');
      if |fields| < nFields {
        return TooFewColumns(nFields, |fields|);
      }
      i := i + 1;
    }
    return Validated;
  }

  /** The column count is one more than the number of tabs. */
  lemma FieldCountIsTabsPlusOne(line: string)
    ensures FieldCount(line) == Occurrences(line, '\t') + 1
  {
    SplitCount(line, '\t');
  }
}

=== FILE: uids.dfy ===
/** The 128-bit record identifier of the uuid crate: the nil sentinel and
    the hyphenated lowercase rendering (`Uuid::to_string`) that the uid
    filters compare against. */
module Uids {
  import opened Numerals

  const UID_BOUND: nat := 0x1_0000_0000_0000_0000_0000_0000_0000_0000

  type Bits128 = n: nat | n < UID_BOUND

  datatype Uid = Uid(bits: Bits128) {

    /** `Uuid::is_nil`: all 128 bits are zero. */
    predicate IsNil() {
      bits == 0
    }
  }

  /** `Uuid::nil()`, the "unset" sentinel. */
  const NIL: Uid := Uid(0)

  /** An identifier as `Uuid::new_v4` hands it out: never nil, because the
      version bits are always set. The random bits themselves are a
      parameter of the model. */
  type FreshUid = u: Uid | !u.IsNil() witness Uid(1)

  /** The positions of the four hyphens in the 8-4-4-4-12 layout. */
  predicate IsHyphenPosition(i: int) {
    i == 8 || i == 13 || i == 18 || i == 23
  }

  lemma Pow16Uid()
    ensures Pow16(32) == UID_BOUND
  {
    assert Pow16(8) == 0x1_0000_0000;
    Pow16Add(8, 8);
    Pow16Add(16, 16);
  }

  /** Inserts the hyphens into 32 hexadecimal digits. */
  function Hyphenate(h: string): (s: string)
    requires |h| == 32
  {
    h[..8] + "-" + h[8..12] + "-" + h[12..16] + "-" + h[16..20] + "-" + h[20..]
  }

  /** Removes the hyphens from a 36-character rendering. */
  function Dehyphenate(s: string): string
    requires |s| == 36
  {
    s[..8] + s[9..13] + s[14..18] + s[19..23] + s[24..]
  }

  /** `Uuid::to_string`: 32 lowercase hexadecimal digits, most significant
      first, grouped 8-4-4-4-12 by hyphens. */
  function UidString(u: Uid): (s: string)
    ensures |s| == 36
    ensures forall i :: 0 <= i < 36 ==> (s[i] == '-' <==> IsHyphenPosition(i))
    ensures forall i :: 0 <= i < 36 && !IsHyphenPosition(i) ==> IsHexDigit(s[i])
  {
    Pow16Uid();
    var h := HexText(u.bits, 32);
    HyphenateLayout(h);
    Hyphenate(h)
  }

  /** Hyphenating 32 hexadecimal digits puts hyphens exactly at the hyphen
      positions and the digits everywhere else. */
  lemma HyphenateLayout(h: string)
    requires |h| == 32 && forall i :: 0 <= i < 32 ==> IsHexDigit(h[i])
    ensures var s := Hyphenate(h);
      && |s| == 36
      && (forall i :: 0 <= i < 36 ==> (s[i] == '-' <==> IsHyphenPosition(i)))
      && (forall i :: 0 <= i < 36 && !IsHyphenPosition(i) ==> IsHexDigit(s[i]))
  {
    var s := Hyphenate(h);
    forall i | 0 <= i < 36
      ensures (s[i] == '-' <==> IsHyphenPosition(i)) && (!IsHyphenPosition(i) ==> IsHexDigit(s[i]))
    {
      if i < 8 {
        assert s[i] == h[i];
      } else if 8 < i < 13 {
        assert s[i] == h[i - 1];
      } else if 13 < i < 18 {
        assert s[i] == h[i - 2];
      } else if 18 < i < 23 {
        assert s[i] == h[i - 3];
      } else if 23 < i {
        assert s[i] == h[i - 4];
      }
    }
  }

  lemma DehyphenateHyphenate(h: string)
    requires |h| == 32
    ensures Dehyphenate(Hyphenate(h)) == h
  {
    var s := Hyphenate(h);
    assert s[..8] == h[..8];
    assert s[9..13] == h[8..12];
    assert s[14..18] == h[12..16];
    assert s[19..23] == h[16..20];
    assert s[24..] == h[20..];
    assert h == h[..8] + h[8..12] + h[12..16] + h[16..20] + h[20..];
  }

  /** Removing the hyphens and reading the hexadecimal digits gives back
      the 128 bits rendered. */
  lemma UidStringRoundTrip(u: Uid)
    ensures ValueIn(Dehyphenate(UidString(u)), 16) == u.bits
  {
    Pow16Uid();
    DehyphenateHyphenate(HexText(u.bits, 32));
    HexTextRoundTrip(u.bits, 32);
  }

  /** Distinct identifiers render differently, so a uid filter line selects
      at most one identifier. */
  lemma UidStringInjective(u: Uid, v: Uid)
    requires UidString(u) == UidString(v)
    ensures u == v
  {
    Pow16Uid();
    DehyphenateHyphenate(HexText(u.bits, 32));
    DehyphenateHyphenate(HexText(v.bits, 32));
    HexTextRoundTrip(u.bits, 32);
    HexTextRoundTrip(v.bits, 32);
  }
}

=== FILE: view.dfy ===
/** `view`: writes the requested columns of every record as a tab-separated
    row, optionally after a `#`-prefixed header naming them. A requested
    name is first looked up among the typed fields and then in the generic
    attribute map. A missing attribute becomes an empty cell when
    `keep_empty` is set and is skipped otherwise; without `keep_empty` a
    record with no cell at all is not written. */
module View {
  import opened Wrappers
  import opened Strings
  import opened Numerals
  import opened Uids
  import opened Annotations

  /** The options of `view` once the arguments are parsed. */
  datatype ViewOptions = ViewOptions(names: seq<string>, header: bool, keepEmpty: bool)

  /** What the model takes from the record library: the `Display` of the
      score, strand and phase, the record length (a function of the
      coordinates), and the root of the taxonomy below which a taxon is
      shown as an empty cell. */
  datatype Display = Display(
    score: Score -> string,
    strand: Strand -> string,
    phase: Phase -> string,
    length: (int, int) -> int,
    rootTaxon: nat)

  /** The names that address a typed field rather than the attribute map. */
  const TYPED_NAMES: set<string> :=
    {"uid", "taxon_id", "seq_id", "source", "feature_type", "start", "end",
     "score", "strand", "phase", "length"}

  /** The text of a typed field, or None when `name` is not one. */
  function TypedValue(a: Annotation, name: string, d: Display): (v: Option<string>)
    ensures v.Some? <==> name in TYPED_NAMES
  {
    if name == "uid" then Some(UidString(a.uid))
    else if name == TAXON_KEY then Some(if a.taxonId >= d.rootTaxon then NatText(a.taxonId) else "")
    else if name == "seq_id" then Some(a.seqId)
    else if name == "source" then Some(a.source)
    else if name == "feature_type" then Some(a.featureType)
    else if name == "start" then Some(IntText(a.start))
    else if name == "end" then Some(IntText(a.end))
    else if name == "score" then Some(d.score(a.score))
    else if name == "strand" then Some(d.strand(a.strand))
    else if name == "phase" then Some(d.phase(a.phase))
    else if name == "length" then Some(IntText(d.length(a.start, a.end)))
    else None
  }

  /** A name that yields a value without `keep_empty`. */
  predicate Resolves(a: Annotation, name: string) {
    name in TYPED_NAMES || name in a.attributes
  }

  /** The cell for one requested name; None means the column is skipped. */
  function Cell(a: Annotation, name: string, keepEmpty: bool, d: Display): (c: Option<string>)
    ensures c.None? <==> !keepEmpty && !Resolves(a, name)
  {
    match TypedValue(a, name, d)
    case Some(v) => Some(v)
    case None =>
      if name in a.attributes then Some(a.attributes[name])
      else if keepEmpty then Some("")
      else None
  }

  /** The cells of one record, in the order the names were requested. */
  function Row(a: Annotation, names: seq<string>, keepEmpty: bool, d: Display): (row: seq<string>)
    ensures |row| <= |names|
  {
    if |names| == 0 then []
    else
      var rest := Row(a, names[1..], keepEmpty, d);
      match Cell(a, names[0], keepEmpty, d)
      case Some(v) => [v] + rest
      case None => rest
  }

  /** The requested names that resolve, in the requested order. */
  function Present(a: Annotation, names: seq<string>): (kept: seq<string>)
    ensures |kept| <= |names|
    ensures forall i :: 0 <= i < |kept| ==> Resolves(a, kept[i]) && kept[i] in names
  {
    if |names| == 0 then []
    else if Resolves(a, names[0]) then [names[0]] + Present(a, names[1..])
    else Present(a, names[1..])
  }

  /** The output line of one record, or None when it is dropped. */
  function Emit(a: Annotation, options: ViewOptions, d: Display): Option<string> {
    var row := Row(a, options.names, options.keepEmpty, d);
    if |row| == 0 && !options.keepEmpty then None else Some(Join(row, "\t"))
  }

  /** The header line: `#` and the requested names joined by tabs. */
  function HeaderLine(names: seq<string>): (line: string)
    ensures |line| >= 1 && line[0] == '#'
  {
    "#" + Join(names, "\t")
  }

  /** The lines written for the records, in order, header excluded. */
  function EmittedLines(records: seq<Annotation>, options: ViewOptions, d: Display): (lines: seq<string>)
    ensures |lines| <= |records|
  {
    if |records| == 0 then []
    else
      var init := EmittedLines(records[..|records| - 1], options, d);
      match Emit(records[|records| - 1], options, d)
      case Some(line) => init + [line]
      case None => init
  }

  /** Everything `view` writes. */
  function ViewLines(records: seq<Annotation>, options: ViewOptions, d: Display): seq<string> {
    (if options.header then [HeaderLine(options.names)] else []) + EmittedLines(records, options, d)
  }

  /** The loop of `view_command`: writes the lines record by record and
      counts every record read, written or not. */
  method ViewCommand(records: seq<Annotation>, options: ViewOptions, d: Display)
    returns (lines: seq<string>, count: nat)
    ensures count == |records|
    ensures lines == ViewLines(records, options, d)
    ensures |lines| <= |records| + (if options.header then 1 else 0)
  {
    var written: seq<string> := [];
    count := 0;
    while count < |records|
      invariant count <= |records|
      invariant written == EmittedLines(records[..count], options, d)
    {
      EmittedLinesStep(records, count, options, d);
      var emitted := Emit(records[count], options, d);
      if emitted.Some? {
        written := written + [emitted.value];
      }
      count := count + 1;
    }
    assert records[..count] == records;
    lines := (if options.header then [HeaderLine(options.names)] else []) + written;
  }

  /** One more record adds its line, if it is written. */
  lemma EmittedLinesStep(records: seq<Annotation>, n: nat, options: ViewOptions, d: Display)
    requires n < |records|
    ensures var emitted := Emit(records[n], options, d);
      EmittedLines(records[..n + 1], options, d)
        == EmittedLines(records[..n], options, d) + (if emitted.Some? then [emitted.value] else [])
  {
    assert records[..n + 1][..n] == records[..n];
  }

  /** With `keep_empty`, every requested name gives exactly one cell, in
      order: the typed field, else the attribute, else the empty string. */
  lemma {:induction false} RowKeepingEmpty(a: Annotation, names: seq<string>, d: Display)
    ensures var row := Row(a, names, true, d);
      && |row| == |names|
      && forall i :: 0 <= i < |names| ==>
           row[i] == if names[i] in TYPED_NAMES then TypedValue(a, names[i], d).value
                     else if names[i] in a.attributes then a.attributes[names[i]]
                     else ""
  {
    if |names| > 0 {
      RowKeepingEmpty(a, names[1..], d);
      var row := Row(a, names, true, d);
      forall i | 1 <= i < |names|
        ensures row[i] == Row(a, names[1..], true, d)[i - 1] && names[i] == names[1..][i - 1]
      {
      }
    }
  }

  /** Without `keep_empty`, skipping the missing attributes gives the same
      cells as keeping only the names that resolve. */
  lemma {:induction false} RowSkippingMissing(a: Annotation, names: seq<string>, d: Display)
    ensures Row(a, names, false, d) == Row(a, Present(a, names), true, d)
  {
    if |names| > 0 {
      RowSkippingMissing(a, names[1..], d);
      if Resolves(a, names[0]) {
        var kept := Present(a, names);
        assert kept[0] == names[0] && kept[1..] == Present(a, names[1..]);
      }
    }
  }

  /** A record is dropped exactly when `keep_empty` is off and none of the
      requested names resolves; a written line splits back into its cells
      when no cell holds a tab. */
  lemma {:induction false} EmitOutcome(a: Annotation, options: ViewOptions, d: Display)
    ensures Emit(a, options, d).None? <==>
      !options.keepEmpty && forall i :: 0 <= i < |options.names| ==> !Resolves(a, options.names[i])
    ensures var row := Row(a, options.names, options.keepEmpty, d);
      Emit(a, options, d).Some? && |row| >= 1 && (forall i :: 0 <= i < |row| ==> '\t' !in row[i]) ==>
        Split(Emit(a, options, d).value, '\t') == row
  {
    var row := Row(a, options.names, options.keepEmpty, d);
    if !options.keepEmpty {
      RowSkippingMissing(a, options.names, d);
      RowKeepingEmpty(a, Present(a, options.names), d);
      PresentEmpty(a, options.names);
    }
    if |row| >= 1 && (forall i :: 0 <= i < |row| ==> '\t' !in row[i]) {
      SplitJoin(row, '\t');
    }
  }

  /** No requested name survives exactly when none resolves. */
  lemma {:induction false} PresentEmpty(a: Annotation, names: seq<string>)
    ensures |Present(a, names)| == 0 <==> forall i :: 0 <= i < |names| ==> !Resolves(a, names[i])
  {
    if |names| > 0 {
      PresentEmpty(a, names[1..]);
      if Resolves(a, names[0]) {
      } else {
        forall i | 1 <= i < |names|
          ensures names[i] == names[1..][i - 1]
        {
        }
      }
    }
  }

  /** A typed name reads the typed field whatever the attribute map holds:
      an attribute with that name is never shown. */
  lemma TypedNamesShadowAttributes(
    a: Annotation,
    name: string,
    keepEmpty: bool,
    other: map<string, string>,
    d: Display)
    requires name in TYPED_NAMES
    ensures Cell(a, name, keepEmpty, d) == Cell(a.(attributes := other), name, keepEmpty, d)
    ensures Cell(a, name, keepEmpty, d).Some?
  {
  }

  /** The taxon cell is empty below the root taxon and otherwise reads
      back as the taxon. */
  lemma TaxonCell(a: Annotation, keepEmpty: bool, d: Display)
    ensures var c := Cell(a, TAXON_KEY, keepEmpty, d).value;
      && (a.taxonId < d.rootTaxon <==> c == "")
      && (a.taxonId >= d.rootTaxon ==> ValueIn(c, 10) == a.taxonId)
  {
    NatTextRoundTrip(a.taxonId);
  }

  /** The start and end cells read back as the record's coordinates. */
  lemma CoordinateCells(a: Annotation, keepEmpty: bool, d: Display)
    ensures var c := Cell(a, "start", keepEmpty, d); c.Some? && IntValue(c.value) == a.start
    ensures var c := Cell(a, "end", keepEmpty, d); c.Some? && IntValue(c.value) == a.end
  {
    IntTextRoundTrip(a.start);
    IntTextRoundTrip(a.end);
  }

  /** The other typed names: `uid` is the identifier's hyphenated
      rendering, the text the uid filters of `add` and `rm` compare against,
      and reads back as the identifier; `seq_id`, `source` and `feature_type` are the record's own text, the
      score, strand and phase cells are their displays, and the `length`
      cell reads back as the record's length. An attribute of the same
      name never takes their place. */
  lemma TypedCells(a: Annotation, keepEmpty: bool, d: Display)
    ensures Cell(a, "uid", keepEmpty, d) == Some(UidString(a.uid))
    ensures var c := Cell(a, "uid", keepEmpty, d);
      c.Some? && |c.value| == 36 && ValueIn(Dehyphenate(c.value), 16) == a.uid.bits
    ensures Cell(a, "seq_id", keepEmpty, d) == Some(a.seqId)
    ensures Cell(a, "source", keepEmpty, d) == Some(a.source)
    ensures Cell(a, "feature_type", keepEmpty, d) == Some(a.featureType)
    ensures Cell(a, "score", keepEmpty, d) == Some(d.score(a.score))
    ensures Cell(a, "strand", keepEmpty, d) == Some(d.strand(a.strand))
    ensures Cell(a, "phase", keepEmpty, d) == Some(d.phase(a.phase))
    ensures var c := Cell(a, "length", keepEmpty, d);
      c.Some? && IntValue(c.value) == d.length(a.start, a.end)
  {
    UidStringRoundTrip(a.uid);
    IntTextRoundTrip(d.length(a.start, a.end));
  }

  /** The header splits back into the requested names when none of them
      holds a tab. */
  lemma HeaderRoundTrip(names: seq<string>)
    requires |names| >= 1
    requires forall i :: 0 <= i < |names| ==> '\t' !in names[i]
    ensures Split(HeaderLine(names)[1..], '\t') == names
  {
    assert HeaderLine(names)[1..] == Join(names, "\t");
    SplitJoin(names, '\t');
  }

  /** With `keep_empty` every record is written, one line each. */
  lemma {:induction false} KeepEmptyWritesEveryRecord(records: seq<Annotation>, options: ViewOptions, d: Display)
    requires options.keepEmpty
    ensures |EmittedLines(records, options, d)| == |records|
  {
    if |records| > 0 {
      KeepEmptyWritesEveryRecord(records[..|records| - 1], options, d);
    }
  }
}

=== FILE: wrappers.dfy ===
/** Failure-compatible Option and Result types, used for the fatal error
    paths (`unwrap`, `?`, `bail!`) and for the partial parsers of the
    annotation library. */
module Wrappers {

  datatype Option<+T> = None | Some(value: T) {

    /** The wrapped value, or `default` when there is none (`unwrap_or`). */
    function GetOr(default: T): T {
      match this
      case Some(v) => v
      case None => default
    }

    /** Turns a missing value into the given error. */
    function OrFail<E>(error: E): Result<T, E> {
      match this
      case Some(v) => Success(v)
      case None => Failure(error)
    }
  }

  datatype Result<+T, +E> = Success(value: T) | Failure(error: E) {

    predicate IsFailure() {
      Failure?
    }

    function PropagateFailure<U>(): Result<U, E>
      requires Failure?
    {
      Failure(error)
    }

    function Extract(): T
      requires Success?
    {
      value
    }
  }
}
